=== FILE: README.md ===
# phable request and response model

A Dafny model of the core of `phable`, a Python client for Project Haystack servers. It covers three parts:

- The kind values and their text forms (`phable/kinds.py`). This includes the `__str__` methods, `DateRange` and `DateTimeRange`, and `_to_haystack_datetime`.
- `Grid.to_grid`, which turns rows of tags into the request grid every operation posts.
- The operations of `Client` (`phable/client.py`) and `HxClient` (`phable/hx_client.py`). The model covers the request grids they build, the validation they run on history rows, the checks they run on the response, and the errors they raise. The response check is modelled in its corrected form; the form as written is modelled beside it (see "## Findings").

The HTTP transport is not modelled. Each operation takes a `server` parameter of type `Request -> Grid`: the grid the server answers to a given operation name and request body. An operation's result is a `Result<_, Error>`; each exception raised on the modelled paths is a constructor of `Error` (the errors raised only on paths the model rules out are listed under "## Left out").

Modules, one per file:

| module | file | models |
|---|---|---|
| `Wrappers` | `wrappers.dfy` | `Option` and `Result` |
| `Seqs` | `seqs.dfy` | distinctness, first occurrence, and order-preserving deduplication |
| `Text` | `text.dfy` | decimal numerals, zero padding, the last `/`-segment, splitting at a character |
| `Dicts` | `dicts.dfy` | Python's insertion-ordered `dict` with `d[k] = v` and `a \| b` |
| `Kinds` | `kinds.dfy` | the kinds, `Grid`, `Grid.to_grid` |
| `KindsText` | `kinds_text.dfy` | the `__str__` methods, ISO dates and times, `_to_haystack_datetime` |
| `Client` | `client.dfy` | `Client` and the helper functions of `client.py` |
| `HxClient` | `hx_client.dfy` | the commit and eval operations of `HxClient` |

`Dict<V>` is a sequence of `(key, value)` pairs in insertion order. `Get` returns the latest binding of a key. `Put` replaces the value of an existing key in place and appends a new key, like `d[k] = v`. `Union(a, b)` applies `Put` for each item of `b` in order, so `b` wins on a clash, like `a | b`. A dict built only by these operations has distinct keys (`WellFormed`).

The marker, NA and remove singletons and the grid print as fixed texts. These are the constants `KindsText.MarkerText` (the check mark U+2713), `NAText` (`"NA"`), `RemoveText` (`"remove"`) and `GridText` (`"Haystack Grid"`), which `KindsText.ValueText` returns for those kinds.

## Model

| member | source | states |
|---|---|---|
| Kinds.ToGrid | phable/kinds.py:226-253 | the rows are returned as given, and a lone dict becomes a one-row list; the column names are the distinct row keys in order of first appearance, and no column has meta; the meta is `{"ver": "3.0"}` merged with the caller's meta |
| Kinds.ToGridColumnsAreRowKeys | phable/kinds.py:240-246 | a name is a column exactly when some row has it as a key |
| Kinds.ToGridOneRowColumns | phable/kinds.py:236-246 | a single dict gives exactly its own keys as columns, in its own order |
| Kinds.SameKeyRowsColumns | phable/kinds.py:240-246 | rows that all have exactly one key `k` give the single column `k`, or no column when there are no rows |
| Kinds.ToGridColumnOrder | phable/kinds.py:240-244 | the columns appear in the order of their first occurrence in the row-by-row key scan |
| Seqs.DedupUnique | phable/kinds.py:240-244 | a repetition-free sequence with the same elements as the key scan, ordered by first occurrence, is the column list: the order is fully determined |
| Kinds.InferColumns | phable/kinds.py:240-244 | the nested loop over rows and keys, appending unseen keys, computes the deduplicated key scan |
| Kinds.CollectNewKeys | phable/kinds.py:241-244 | one pass of the inner loop extends the deduplication of what was scanned by the keys of one row |
| Kinds.GridMeta | phable/kinds.py:248-251 | without caller meta the meta is exactly `{"ver": "3.0"}`; with it, the caller's keys take the caller's values and every other key reads as in `{"ver": "3.0"}` |
| Kinds.ToGridMeta | phable/kinds.py:248-251 | `ver` is the first meta key and reads `"3.0"` unless the caller overrides it; the meta has distinct keys |
| Dicts.Put | phable/client.py:626-633 | `d[k] = v`: `k` reads back `v`, all other keys are unchanged, and a new key is appended after the existing ones |
| Dicts.Union | phable/kinds.py:250-251 | `a \| b` reads as `b` on the keys of `b` and as `a` elsewhere |
| Dicts.UnionKeys | phable/kinds.py:250-251 | the keys of `a \| b` are those of `a` in order, then the new keys of `b` in order, each once |
| KindsText.NumberText | phable/kinds.py:85-89 | the magnitude text, followed directly by the unit when there is one |
| KindsText.NumberTextReadsBack | phable/kinds.py:85-89 | an integer number prints unambiguously: value and unit are read back when the unit is absent or does not start with a digit |
| KindsText.UriText | phable/kinds.py:112-113 | a URI prints as its value, unchanged |
| KindsText.RefText | phable/kinds.py:129-133 | the display name when present, otherwise `@` followed by the id |
| KindsText.RefTextAndEquality | phable/kinds.py:129-133 | without a display name the text determines the id; refs that share a display name print alike whatever their ids |
| KindsText.ValueText | phable/kinds.py:29-212 | `str()` is defined exactly for the marker, NA, remove, URI, number, ref, symbol, XStr and grid kinds; a URI prints as its value and a symbol as `^` and its name |
| KindsText.SingletonTexts | phable/kinds.py:29-65 | the marker, NA and remove singletons print as three different texts; every grid prints the same text, which differs from theirs |
| KindsText.SymbolText | phable/kinds.py:150-151 | `^` followed by the name |
| KindsText.XStrText | phable/kinds.py:192-193 | the type name and value, separated by a comma and a space, in parentheses |
| KindsText.XStrTextReadsBack | phable/kinds.py:192-193 | a type name without a comma is read back, with the encoded value, from the text |
| KindsText.DateIso | phable/kinds.py:270-271 | a valid date prints as ten characters `YYYY-MM-DD` |
| KindsText.DateRangeText | phable/kinds.py:270-271 | for valid dates, 21 characters: the start's ISO text, a comma, then the end's ISO text |
| KindsText.DateIsoReadsBack | phable/kinds.py:270-271 | the ISO text of a valid date determines the date |
| KindsText.DateRangeTextReadsBack | phable/kinds.py:270-271 | the text of a date range, two ISO dates joined by a comma, gives back both dates |
| KindsText.HaystackZone | phable/kinds.py:303-307 | the zone name after its last `/`, or the whole name when there is none; the result contains no `/` |
| KindsText.TimeIso | phable/kinds.py:309-312 | a valid time prints as `HH:MM:SS` (8 characters), with `.mmm` after it (12 characters) when milliseconds are asked for |
| KindsText.TimeIsoReadsBack | phable/kinds.py:309-312 | each field of that text reads back the hour, minute and second; the fraction reads back the microseconds truncated to milliseconds |
| KindsText.DateTimeIso | phable/kinds.py:309-312 | the ISO date, `T`, the time at seconds precision when the microsecond is zero and at milliseconds otherwise, then the UTC offset |
| KindsText.HaystackDateTime | phable/kinds.py:302-314 | the ISO text, one space, then the Haystack zone name |
| KindsText.HaystackDateTimeHasNoComma | phable/kinds.py:302-314 | the datetime text has no comma unless the offset or the zone name has one |
| KindsText.DateTimeRangeText | phable/kinds.py:291-299 | without an end, the start's datetime text; with one, the start's text, a comma, then the end's text |
| KindsText.DateTimeRangeTextSplit | phable/kinds.py:291-299 | the range text has a comma exactly when there is an end, and splitting at the first comma gives back both datetime texts |
| Text.NatText | phable/kinds.py:85-89 | the decimal numeral of a natural number: digits only, reading back the number, with no leading zero |
| Text.IntTextThenSuffix | phable/kinds.py:85-89 | a numeral followed by text that does not start with a digit parses back as the integer and that text |
| Text.Padded | phable/kinds.py:270-271 | a zero-padded numeral with at least the given width that reads back the number |
| Text.LastSegment | phable/kinds.py:303-305 | the part after the last `/`: a suffix of the name, preceded by `/` or being the whole name |
| Client.EmptyGridShape | phable/client.py:661 | the default request body has meta `{"ver": "3.0"}`, the single column `empty` and no rows |
| Client.ValidateResponseMeta | phable/client.py:707-718 | a response passes exactly when its meta has neither `err` nor `incomplete`; `err` takes precedence and raises the error-grid error carrying the meta's `dis`; otherwise `incomplete` raises the incomplete-data error carrying its value |
| Client.ValidateResponseMetaAsWritten | phable/client.py:707-718 | the check as written accepts the same metas; an error grid with a string `dis` raises the error-grid error carrying it, one without `dis` raises `KeyError` and one with a non-string `dis` raises `TypeError`; otherwise `incomplete` raises the incomplete-data error carrying its value |
| Client.ErrorGridWithoutDisRaisesKeyError | phable/client.py:708-712 | an error grid whose meta has `err` but no `dis` raises `KeyError` as written, and the error-grid error when corrected |
| Client.ValidateResponseMetaAgrees | phable/client.py:707-718 | the two checks accept the same responses, and they give the same outcome whenever an error grid carries a string `dis` |
| Client.Call | phable/client.py:658-679 | the response is returned exactly when its meta passes the (corrected) check, and it is the server's answer to the op and body; otherwise the error is the one the check raises |
| Client.CallAsWritten | phable/client.py:658-679 | the same call with the response check as written: the answer is returned exactly when that check passes, and otherwise its error is raised |
| Client.CallAgrees | phable/client.py:658-679 | both calls succeed on the same responses and agree unless an error grid lacks a string `dis`; without `dis`, the call as written raises `KeyError` where the corrected one raises the error-grid error |
| Client.About | phable/client.py:127-133 | the first row of the answer to the empty grid; an accepted answer without rows is an `IndexError`; an error of the call is passed on unchanged |
| Client.Close | phable/client.py:135-145 | the server's answer to the empty grid under the op `close` when the response check passes, and the check's error otherwise |
| Client.ReadAllRequest | phable/client.py:209-214 | one row holding the filter, plus `limit` only when one is given; columns follow the row's keys; no column has meta |
| Client.ReadAll | phable/client.py:186-216 | the server's answer to that row under the op `read` when the response check passes, and the check's error otherwise |
| Client.Read | phable/client.py:176-184 | `read_all` with limit 1; when checked, an empty answer raises `UnknownRecError` with the exact message |
| Client.ReadUnchecked | phable/client.py:176-184 | unchecked, `read` is `read_all` with limit 1 and never raises `UnknownRecError` |
| Client.ReadByIdsRequest | phable/client.py:278-280 | one row per id, in order, whose single `id` key holds `{"_kind": "ref", "val": id}`; the single column `id`; no column has meta |
| Client.ReadByIdRequest | phable/client.py:243-244 | the request of `read_by_id` is that of `read_by_ids` for the one-element list |
| Client.ReadByIdIgnoresDis | phable/client.py:243-244 | the display name of the ref is not sent |
| Client.ReadById | phable/client.py:243-251 | when checked, an answer without rows raises `UnknownRecError`; otherwise the answer is returned |
| Client.ReadByIds | phable/client.py:278-289 | succeeds exactly when the answer passes the meta check, has rows, and has no empty row; a failed check is passed on; an answer without rows raises `UnknownRecError` with the no-id message, and one with an empty row raises it with the some-ids message |
| Client.ReadByIdsOfOne | phable/client.py:243-289 | a successful batch read of one id gives the same grid as the checked single read |
| Client.RangeText | phable/client.py:725-728 | a date gives its ISO text, which has no comma and reads back the date; a date range gives a text with a comma that reads back both dates; a datetime range gives its `str()` text |
| Client.HisReadRequest | phable/client.py:721-736 | one id gives one row with exactly the keys `id` and `range`, which are also the columns; a list gives one row with the single key `id` per id, in order, and the meta keys `ver` then `range`; the range value is the range text; no column has meta |
| Client.HisReadById | phable/client.py:380-383 | the server's answer to the single-id history-read grid under `hisRead` when the response check passes, and the check's error otherwise |
| Client.HisReadByIds | phable/client.py:423-426 | the server's answer to the batch history-read grid under `hisRead` when the response check passes, and the check's error otherwise |
| Client.VNameInjective | phable/client.py:693 | the names `v0`, `v1`, ... are distinct, and none of them is `ts` |
| Client.ExpectedColNamesMembers | phable/client.py:691-696 | the accepted keys are `ts` and `v0` to `v{n-1}` for a list of `n` ids, and `ts` and `val` for one id |
| Client.FirstInvalid | phable/client.py:698-701 | none exactly when every scanned key is accepted; otherwise a scanned key that is not accepted and that every key scanned before its first occurrence is accepted, so it is the first invalid key of the scan |
| Client.ValidateHisWriteParameters | phable/client.py:687-704 | the rows pass exactly when every key of every row is an accepted name; a failure names the first key, in the row-then-key scan, that is not accepted |
| Client.ValidateHisWriteAcceptsSubsets | phable/client.py:698-704 | rows using only accepted keys, in any subset and including none, always pass |
| Client.HisWriteByIdRequest | phable/client.py:493-495 | validated first, with the validation error passed on; the rows unchanged; the meta keys exactly `ver` then `id`, holding `3.0` and the point; the columns are the distinct row keys in order of first appearance, without meta, so only `ts` and `val` |
| Client.HisWriteById | phable/client.py:493-496 | a validation error is raised before anything is posted; otherwise the request grid goes to `hisWrite` |
| Client.HisWriteCols | phable/client.py:585-588 | `ts` first, then column `v{i}` whose meta holds the `i`-th id |
| Client.HisWriteByIdsRequest | phable/client.py:582-590 | validated first, with the validation error passed on; meta exactly `{"ver": "3.0"}`, the rows unchanged, and the columns exactly `HisWriteCols(ids)`: `ts`, then `v{i}` carrying the `i`-th id |
| Client.HisWriteByIdsRequestConsistent | phable/client.py:582-590 | an accepted batch write has distinct column names, and every row key names one of its columns |
| Client.HisWriteByIds | phable/client.py:582-592 | a validation error is raised before anything is posted; otherwise the request grid goes to `hisWrite` |
| Client.PointWriteRow | phable/client.py:626-633 | the row's keys are `id`, `level`, then each of `val`, `who` and `duration` that is given, in that order, each once |
| Client.PointWriteRowValues | phable/client.py:626-633 | each key of the row reads back its argument, and an optional key is absent exactly when its argument is not given |
| Client.PointWriteRequest | phable/client.py:626-635 | a one-row grid whose columns are the row's keys; meta `{"ver": "3.0"}`; no column has meta |
| Client.PointWrite | phable/client.py:635 | the server's answer to the point-write grid under `pointWrite` when the response check passes, and the check's error otherwise |
| Client.PointWriteArrayRequest | phable/client.py:656 | a single row and column `id` holding the ref; no column has meta |
| Client.PointWriteArray | phable/client.py:656 | the server's answer to that grid under `pointWrite` when the response check passes, and the check's error otherwise |
| HxClient.CommitText | phable/hx_client.py:42 | the commit kinds are named `add`, `update` and `remove`: `add` exactly for an add, `update` exactly for an update, so `remove` for a remove |
| HxClient.CommitRows | phable/hx_client.py:43-45 | a grid is replaced by its rows; a record or a list is passed on as given |
| HxClient.CommitMeta | phable/hx_client.py:42-45 | the commit meta is exactly `ver` and then `commit` |
| HxClient.CommitRequest | phable/hx_client.py:42-45 | the records as rows, the columns they use in order of first appearance, and the commit meta |
| HxClient.CommitGridIsItsRows | phable/hx_client.py:43-44 | committing a grid sends the same request as committing the list of its rows; the grid's own columns and meta are dropped |
| HxClient.CommitOneRecord | phable/hx_client.py:45 | a lone record becomes a one-row grid whose columns are its keys, the same as a one-element list |
| HxClient.CommitColumnsAreRecordKeys | phable/hx_client.py:45 | a name is a commit column exactly when some record has it as a key |
| HxClient.Commit | phable/hx_client.py:45 | the server's answer to the commit grid under `commit` when the response check passes, and the check's error otherwise |
| HxClient.CommitAdd | phable/hx_client.py:42-45 | a commit with meta `commit: "add"` |
| HxClient.CommitRemove | phable/hx_client.py:77-80 | a commit with meta `commit: "remove"` |
| HxClient.CommitUpdate | phable/hx_client.py:111-114 | a commit with meta `commit: "update"` |
| HxClient.EvalRequest | phable/hx_client.py:140 | one row and one column `expr` holding the expression; meta `{"ver": "3.0"}`; no column has meta |
| HxClient.Eval | phable/hx_client.py:140 | the server's answer to the eval grid under `eval` when the response check passes, and the check's error otherwise |

## Left out

- The HTTP transport, SCRAM authentication, `open`, the context-manager methods and the token header are not modelled. The server is a function parameter.
- `Client.his_read` with point data is not modelled. It merges point metadata into the response columns, which the history parsers do; they are not part of this model.
- The JSON encoding and decoding of grids, and `Grid.to_pandas`, are not part of this model.
- Floats: `Number` holds either an integer or a float together with its Python `repr` text. Python's float formatting is not modelled.
- `Coord.__str__` is not modelled. It depends on `Decimal` precision and formatting.
- KindsText.ValueText: gives `None` for `Coord` (see above) and for the Python built-in types a tag may hold (booleans, integers, strings, dates, times, datetimes, lists, dicts), whose `str()` is Python's and not defined in `phable/kinds.py`.
- Time zones: a `DateTime` carries its UTC offset text and its IANA zone name as data. The zone database that produces them is not modelled.
- KindsText.XStrTextReadsBack: requires a type name without a comma. Haystack type names are identifiers, but the Python class does not enforce this.
- KindsText.DateIsoReadsBack: requires a date within Python's `date` range (years 1 to 9999), where `isoformat` uses exactly four year digits.
- KindsText.NumberTextReadsBack: covers integer magnitudes and units that do not start with a digit. With a unit that starts with a digit, the text is ambiguous.
- Dict equality: a model `Dict` is compared in order, while Python's `==` on dicts ignores order. Every equality stated here also holds in Python.
- Client.Call: every operation runs the corrected response check. For an error grid without a string `dis`, the model therefore raises the error-grid error, where `_call` as written raises `KeyError` or `TypeError`. The call as written is `Client.CallAsWritten`, and `Client.CallAgrees` states exactly where the two differ.
- Client.ValidateResponseMeta: carries the raw `dis` and `incomplete` values in the error instead of the formatted help-message text.
- `read_by_ids` has no `checked` parameter in the code and always checks; the model follows the code.
- `HxClient` calls `self.call`, which `client.py` does not define under that name; it is modelled as `_call`, the method `client.py` does define.
- Client.HisWriteById and Client.HisWriteByIds: `_validate_his_write_parameters` fails with an unbound-variable error when the id argument is neither a list nor a `Ref` and some history row has at least one key; with no rows, or only empty rows, it returns normally. The model's argument types (`Ref` or `seq<Ref>`) rule these id arguments out.

## Findings

| source | as written | input that shows it | evidently intended | confidence | as-written member | corrected member |
|---|---|---|---|---|---|---|
| phable/client.py:708-712 | on a meta with `err`, reads `meta["dis"]` without a check and concatenates it to a string | a response meta `{"err": Marker()}` with no `dis`: raises `KeyError`; with a non-string `dis`, it raises `TypeError` | every error grid raises `HaystackErrorGridResponseError` | low, not executed | Client.ValidateResponseMetaAsWritten, Client.ErrorGridWithoutDisRaisesKeyError, Client.CallAsWritten, Client.CallAgrees | Client.ValidateResponseMeta, Client.Call |

=== FILE: client.dfy ===
/** The request builders and response checks of `phable/client.py`. Every operation is a pure
    function of its arguments and of the server, which is abstracted as a function from the
    request it receives to the response grid it returns; transport and sessions are not modelled. */
module Client {
  import opened Wrappers
  import opened Dicts
  import opened Kinds
  import KindsText
  import Text
  import Seqs

  /** The exceptions the client raises: its own four classes, plus the Python built-in errors the
      code as written can raise on odd input. */
  datatype Error =
    | HisWriteOpParametersError(invalidKey: string)
    | UnknownRecError(helpMsg: string)
    /** `HaystackErrorGridResponseError`; carries the `dis` tag of the error grid. */
    | ErrorGridResponseError(dis: Option<Value>)
    /** `HaystackIncompleteDataResponseError`; carries the `incomplete` tag. */
    | IncompleteDataResponseError(incomplete: Value)
    | KeyError(key: string)
    | TypeError
    | IndexError

  /** What `_call` posts: the operation name (the last path segment of the URL) and the grid. */
  datatype Request = Request(op: string, body: Grid)

  /** The server, seen from the client: the grid it answers to each request. */
  type Server = Request -> Grid

  const ReadNotFound: string := "Unable to locate an entity on the server that matches the filter."
  const IdNotFound: string := "Unable to locate the id on the server."
  const NoIdFound: string := "Unable to locate any of the ids on the server."
  const SomeIdNotFound: string := "Unable to locate one or more ids on the server."

  /** The default body of `_call`: the canonical empty grid, one column named "empty", no rows. */
  const EmptyGrid: Grid := Grid(VerMeta, [Col("empty", None)], [])

  lemma EmptyGridShape()
    ensures EmptyGrid.rows == [] && ColNames(EmptyGrid.cols) == ["empty"]
    ensures Get(EmptyGrid.meta, "ver") == Some(Str("3.0")) && Keys(EmptyGrid.meta) == ["ver"]
  {
  }

  // ----- response checks ---------------------------------------------------------------------

  /** `_validate_response_meta` as written: it reads `meta["dis"]` without checking for it and
      concatenates it to a string, so an error grid without a `dis` string raises a Python
      built-in error instead of the client's own. */
  function ValidateResponseMetaAsWritten(meta: Dict<Value>): (r: Result<(), Error>)
    ensures r.Ok? <==> "err" !in Keys(meta) && "incomplete" !in Keys(meta)
    ensures "err" in Keys(meta) && "dis" !in Keys(meta) ==> r == Err(KeyError("dis"))
    ensures "err" in Keys(meta) && "dis" in Keys(meta) && !Get(meta, "dis").value.Str? ==> r == Err(TypeError)
    ensures "err" in Keys(meta) && Get(meta, "dis").Some? && Get(meta, "dis").value.Str? ==>
      r == Err(ErrorGridResponseError(Get(meta, "dis")))
    ensures "err" !in Keys(meta) && "incomplete" in Keys(meta) ==>
      r == Err(IncompleteDataResponseError(Get(meta, "incomplete").value))
  {
    if "err" in Keys(meta) then
      var dis := Get(meta, "dis");
      if dis.None? then Err(KeyError("dis"))
      else if dis.value.Str? then Err(ErrorGridResponseError(dis))
      else Err(TypeError)
    else if "incomplete" in Keys(meta) then Err(IncompleteDataResponseError(Get(meta, "incomplete").value))
    else Ok(())
  }

  /** An error grid whose meta has `err` but no `dis` makes the check as written raise `KeyError`. */
  lemma ErrorGridWithoutDisRaisesKeyError()
    ensures ValidateResponseMetaAsWritten([("err", Marker)]) == Err(KeyError("dis"))
    ensures ValidateResponseMeta([("err", Marker)]) == Err(ErrorGridResponseError(None))
  {
    assert Keys([("err", Marker)]) == ["err"];
  }

  /** `_validate_response_meta`, with the error grid always mapped to the client's error type:
      `err` wins over `incomplete`, `incomplete` raises next, and any other meta passes. */
  function ValidateResponseMeta(meta: Dict<Value>): (r: Result<(), Error>)
    ensures r.Ok? <==> "err" !in Keys(meta) && "incomplete" !in Keys(meta)
    ensures "err" in Keys(meta) ==> r == Err(ErrorGridResponseError(Get(meta, "dis")))
    ensures "err" !in Keys(meta) && "incomplete" in Keys(meta) ==>
      r.Err? && r.error == IncompleteDataResponseError(Get(meta, "incomplete").value)
  {
    if "err" in Keys(meta) then Err(ErrorGridResponseError(Get(meta, "dis")))
    else if "incomplete" in Keys(meta) then Err(IncompleteDataResponseError(Get(meta, "incomplete").value))
    else Ok(())
  }

  /** The corrected check differs from the one as written only on error grids that lack a string
      `dis`; everywhere else both give the same outcome. */
  lemma ValidateResponseMetaAgrees(meta: Dict<Value>)
    ensures ("err" !in Keys(meta) || (Get(meta, "dis").Some? && Get(meta, "dis").value.Str?)) ==>
      ValidateResponseMetaAsWritten(meta) == ValidateResponseMeta(meta)
    ensures ValidateResponseMetaAsWritten(meta).Ok? <==> ValidateResponseMeta(meta).Ok?
  {
  }

  /** What every operation promises about one exchange with the server: the answer comes back
      exactly when its meta passes the check, and otherwise the check's error is raised. */
  predicate IsAnswer(server: Server, op: string, body: Grid, r: Result<Grid, Error>) {
    var response := server(Request(op, body));
    && (r.Ok? <==> ValidateResponseMeta(response.meta).Ok?)
    && (r.Ok? ==> r.value == response)
    && (r.Err? ==> r.error == ValidateResponseMeta(response.meta).error)
  }

  /** `_call`: posts the body and returns the response once its meta has passed the (corrected)
      check; a failing check raises its error. */
  function Call(server: Server, op: string, body: Grid): (r: Result<Grid, Error>)
    ensures r.Ok? <==> ValidateResponseMeta(server(Request(op, body)).meta).Ok?
    ensures r.Ok? ==> r.value == server(Request(op, body))
    ensures r.Err? ==> r.error == ValidateResponseMeta(server(Request(op, body)).meta).error
  {
    var response := server(Request(op, body));
    var _ :- ValidateResponseMeta(response.meta);
    Ok(response)
  }

  /** `_call` as written, running the response check as written. */
  function CallAsWritten(server: Server, op: string, body: Grid): (r: Result<Grid, Error>)
    ensures r.Ok? <==> ValidateResponseMetaAsWritten(server(Request(op, body)).meta).Ok?
    ensures r.Ok? ==> r.value == server(Request(op, body))
    ensures r.Err? ==> r.error == ValidateResponseMetaAsWritten(server(Request(op, body)).meta).error
  {
    var response := server(Request(op, body));
    var _ :- ValidateResponseMetaAsWritten(response.meta);
    Ok(response)
  }

  /** Both calls return the same answers; they differ only on an error grid whose `dis` is missing
      or not a string, where the call as written raises `KeyError` or `TypeError`. */
  lemma CallAgrees(server: Server, op: string, body: Grid)
    ensures Call(server, op, body).Ok? <==> CallAsWritten(server, op, body).Ok?
    ensures var meta := server(Request(op, body)).meta;
      ("err" !in Keys(meta) || (Get(meta, "dis").Some? && Get(meta, "dis").value.Str?)) ==>
        Call(server, op, body) == CallAsWritten(server, op, body)
    ensures var meta := server(Request(op, body)).meta;
      "err" in Keys(meta) && "dis" !in Keys(meta) ==>
        CallAsWritten(server, op, body) == Err(KeyError("dis"))
        && Call(server, op, body) == Err(ErrorGridResponseError(None))
  {
    ValidateResponseMetaAgrees(server(Request(op, body)).meta);
  }

  // ----- about, close ------------------------------------------------------------------------

  /** `about()`: the first row of the answer to the empty grid; a rowless answer raises. */
  function About(server: Server): (r: Result<Row, Error>)
    ensures var resp := server(Request("about", EmptyGrid));
      r.Ok? <==> Call(server, "about", EmptyGrid).Ok? && |resp.rows| > 0
    ensures r.Ok? ==> r.value == server(Request("about", EmptyGrid)).rows[0]
    ensures Call(server, "about", EmptyGrid).Ok? && |server(Request("about", EmptyGrid)).rows| == 0 ==>
      r == Err(IndexError)
    ensures Call(server, "about", EmptyGrid).Err? ==> r.Err? && r.error == Call(server, "about", EmptyGrid).error
  {
    var response :- Call(server, "about", EmptyGrid);
    if |response.rows| == 0 then Err(IndexError) else Ok(response.rows[0])
  }

  /** `close()`: posts the empty grid to the close operation. */
  function Close(server: Server): (r: Result<Grid, Error>)
    ensures IsAnswer(server, "close", EmptyGrid, r)
  {
    Call(server, "close", EmptyGrid)
  }

  // ----- read --------------------------------------------------------------------------------

  /** The request grid of `read_all`: one row holding the filter, and the limit only when given. */
  function ReadAllRequest(filter: string, limit: Option<int>): (g: Grid)
    ensures |g.rows| == 1 && g.meta == VerMeta
    ensures Get(g.rows[0], "filter") == Some(Str(filter))
    ensures Get(g.rows[0], "limit") == if limit.Some? then Some(Int(limit.value)) else None
    ensures Keys(g.rows[0]) == if limit.Some? then ["filter", "limit"] else ["filter"]
    ensures ColNames(g.cols) == Keys(g.rows[0])
    ensures forall j :: 0 <= j < |g.cols| ==> g.cols[j].meta.None?
  {
    var base: Row := [("filter", Str(filter))];
    SingletonRow("filter", Str(filter));
    assert WellFormed(base) && Get(base, "limit") == None;
    var row := PutIfGiven(base, "limit", if limit.Some? then Some(Int(limit.value)) else None);
    ToGridOneRowColumns(row, None);
    ToGrid(OneRow(row), None)
  }

  /** `read_all(filter, limit)`: the answer to the filter row under the op `read`. */
  function ReadAll(server: Server, filter: string, limit: Option<int>): (r: Result<Grid, Error>)
    ensures IsAnswer(server, "read", ReadAllRequest(filter, limit), r)
  {
    Call(server, "read", ReadAllRequest(filter, limit))
  }

  /** `read(filter, checked)`: `read_all` with limit 1; when checked, an answer without rows
      becomes `UnknownRecError`; otherwise the answer is returned unchanged. */
  function Read(server: Server, filter: string, checked: bool): (r: Result<Grid, Error>)
    ensures var all := ReadAll(server, filter, Some(1));
      && (all.Err? ==> r == all)
      && (all.Ok? && checked && |all.value.rows| == 0 ==> r == Err(UnknownRecError(ReadNotFound)))
      && (all.Ok? && !(checked && |all.value.rows| == 0) ==> r == all)
  {
    var response :- ReadAll(server, filter, Some(1));
    if checked && |response.rows| == 0 then Err(UnknownRecError(ReadNotFound)) else Ok(response)
  }

  /** Unchecked, `read` never raises `UnknownRecError` and is `read_all` with limit 1. */
  lemma ReadUnchecked(server: Server, filter: string)
    ensures Read(server, filter, false) == ReadAll(server, filter, Some(1))
    ensures Read(server, filter, false).Err? ==> !Read(server, filter, false).error.UnknownRecError?
  {
  }

  /** The id cell `read_by_id` and `read_by_ids` send: the dict `{"_kind": "ref", "val": id.val}`. */
  function IdCell(id: Ref): Value {
    DictVal([("_kind", Str("ref")), ("val", Str(id.val))])
  }

  function IdRow(id: Ref): Row {
    [("id", IdCell(id))]
  }

  /** The request grid of `read_by_ids`: one row `{id}` per id, in order, and one column "id". */
  function ReadByIdsRequest(ids: seq<Ref>): (g: Grid)
    ensures g.meta == VerMeta && |g.rows| == |ids|
    ensures forall i :: 0 <= i < |ids| ==> Get(g.rows[i], "id") == Some(IdCell(ids[i])) && Keys(g.rows[i]) == ["id"]
    ensures ColNames(g.cols) == if |ids| == 0 then [] else ["id"]
    ensures forall j :: 0 <= j < |g.cols| ==> g.cols[j].meta.None?
  {
    var rows := seq(|ids|, i requires 0 <= i < |ids| => IdRow(ids[i]));
    forall i | 0 <= i < |ids| ensures Get(rows[i], "id") == Some(IdCell(ids[i])) && Keys(rows[i]) == ["id"] {
      SingletonRow("id", IdCell(ids[i]));
    }
    SameKeyRowsColumns(rows, "id");
    ToGridMeta(ManyRows(rows), None);
    ToGrid(ManyRows(rows), None)
  }

  /** The request grid of `read_by_id`: the same as for the one-element list of ids. */
  function ReadByIdRequest(id: Ref): (g: Grid)
    ensures g == ReadByIdsRequest([id])
  {
    var ids := [id];
    assert seq(|ids|, i requires 0 <= i < |ids| => IdRow(ids[i])) == [IdRow(id)];
    ToGrid(ManyRows([IdRow(id)]), None)
  }

  /** The request carries only the id text: the display name of the ref is not sent. */
  lemma ReadByIdIgnoresDis(val: string, dis: Option<string>, dis': Option<string>)
    ensures ReadByIdRequest(Ref(val, dis)) == ReadByIdRequest(Ref(val, dis'))
  {
  }

  /** `read_by_id(id, checked)`: when checked, an answer without rows becomes `UnknownRecError`. */
  function ReadById(server: Server, id: Ref, checked: bool): (r: Result<Grid, Error>)
    ensures var call := Call(server, "read", ReadByIdRequest(id));
      && (call.Err? ==> r == call)
      && (call.Ok? && checked && |call.value.rows| == 0 ==> r == Err(UnknownRecError(IdNotFound)))
      && (call.Ok? && !(checked && |call.value.rows| == 0) ==> r == call)
  {
    var response :- Call(server, "read", ReadByIdRequest(id));
    if checked && |response.rows| == 0 then Err(UnknownRecError(IdNotFound)) else Ok(response)
  }

  /** `read_by_ids(ids)`: always checked; an answer without rows, or with an empty row (the server's
      mark for an id it does not know), becomes `UnknownRecError`. */
  function ReadByIds(server: Server, ids: seq<Ref>): (r: Result<Grid, Error>)
    ensures var call := Call(server, "read", ReadByIdsRequest(ids));
      r.Ok? <==> call.Ok? && |call.value.rows| > 0 && forall i :: 0 <= i < |call.value.rows| ==> |call.value.rows[i]| > 0
    ensures r.Ok? ==> r.value == server(Request("read", ReadByIdsRequest(ids)))
    ensures r.Err? && Call(server, "read", ReadByIdsRequest(ids)).Ok? ==> r.error.UnknownRecError?
    ensures var call := Call(server, "read", ReadByIdsRequest(ids));
      && (call.Err? ==> r == call)
      && (call.Ok? && |call.value.rows| == 0 ==> r == Err(UnknownRecError(NoIdFound)))
      && (call.Ok? && |call.value.rows| > 0 && (exists i :: 0 <= i < |call.value.rows| && |call.value.rows[i]| == 0) ==>
            r == Err(UnknownRecError(SomeIdNotFound)))
  {
    var response :- Call(server, "read", ReadByIdsRequest(ids));
    if |response.rows| == 0 then Err(UnknownRecError(NoIdFound))
    else if exists i :: 0 <= i < |response.rows| && |response.rows[i]| == 0 then Err(UnknownRecError(SomeIdNotFound))
    else Ok(response)
  }

  /** Whenever reading a single id through `read_by_ids` succeeds, the checked `read_by_id` of it
      succeeds with the same grid. */
  lemma ReadByIdsOfOne(server: Server, id: Ref)
    ensures ReadByIds(server, [id]).Ok? ==> ReadById(server, id, true) == ReadByIds(server, [id])
  {
  }

  // ----- history -----------------------------------------------------------------------------

  /** The point argument of the history operations: one `Ref`, or a list of them. */
  datatype IdsArg = OneId(id: Ref) | ManyIds(ids: seq<Ref>)

  /** The range argument of the history reads. */
  datatype RangeArg = OnDate(date: Date) | Dates(dates: DateRange) | Instants(instants: DateTimeRange)

  /** The range as the text Haystack expects: `date.isoformat()` for a date, `str()` of a range.
      A valid date, or a range of valid dates, is read back from its text, and the two forms are
      told apart by the comma. */
  function RangeText(range: RangeArg): (t: string)
    ensures range.OnDate? && KindsText.ValidDate(range.date) ==>
      ',' !in t && KindsText.ParseDate(t) == Some(range.date)
    ensures range.Dates? && KindsText.ValidDate(range.dates.start) && KindsText.ValidDate(range.dates.end) ==>
      ',' in t && KindsText.ParseDateRange(t) == Some(range.dates)
    ensures range.Instants? ==> t == KindsText.DateTimeRangeText(range.instants)
  {
    match range
    case OnDate(d) =>
      KindsText.DateIsoHasNoComma(d);
      if KindsText.ValidDate(d) then
        KindsText.DateIsoReadsBack(d);
        KindsText.DateIso(d)
      else KindsText.DateIso(d)
    case Dates(r) =>
      if KindsText.ValidDate(r.start) && KindsText.ValidDate(r.end) then
        KindsText.DateRangeTextReadsBack(r);
        assert KindsText.DateRangeText(r)[10] == ',';
        KindsText.DateRangeText(r)
      else KindsText.DateRangeText(r)
    case Instants(r) => KindsText.DateTimeRangeText(r)
  }

  /** `_create_his_read_req_data`: a single id gives one row `{id, range}`; a list gives one row
      `{id}` per id, in order, with the range in the grid meta. */
  function HisReadRequest(ids: IdsArg, range: RangeArg): (g: Grid)
    ensures ids.OneId? ==>
      && |g.rows| == 1 && g.meta == VerMeta
      && Get(g.rows[0], "id") == Some(RefVal(ids.id))
      && Get(g.rows[0], "range") == Some(Str(RangeText(range)))
      && Keys(g.rows[0]) == ["id", "range"]
      && ColNames(g.cols) == ["id", "range"]
    ensures ids.ManyIds? ==>
      && |g.rows| == |ids.ids|
      && (forall i :: 0 <= i < |ids.ids| ==> Get(g.rows[i], "id") == Some(RefVal(ids.ids[i])) && Keys(g.rows[i]) == ["id"])
      && Get(g.meta, "range") == Some(Str(RangeText(range)))
      && Get(g.meta, "ver") == Some(Str("3.0"))
      && Keys(g.meta) == ["ver", "range"]
      && ColNames(g.cols) == if |ids.ids| == 0 then [] else ["id"]
    ensures forall j :: 0 <= j < |g.cols| ==> g.cols[j].meta.None?
  {
    match ids
    case OneId(id) => HisReadOneRequest(id, Str(RangeText(range)))
    case ManyIds(list) => HisReadManyRequest(list, Str(RangeText(range)))
  }

  /** The single-id case of `_create_his_read_req_data`, for a given range value. */
  function HisReadOneRequest(id: Ref, text: Value): (g: Grid)
    ensures |g.rows| == 1 && g.meta == VerMeta
    ensures Get(g.rows[0], "id") == Some(RefVal(id)) && Get(g.rows[0], "range") == Some(text)
    ensures Keys(g.rows[0]) == ["id", "range"] && ColNames(g.cols) == ["id", "range"]
    ensures forall j :: 0 <= j < |g.cols| ==> g.cols[j].meta.None?
  {
    var row: Row := [("id", RefVal(id)), ("range", text)];
    assert Keys(row) == ["id", "range"];
    assert row[..1] == [("id", RefVal(id))];
    SingletonRow("id", RefVal(id));
    ToGridOneRowColumns(row, None);
    ToGridMeta(OneRow(row), None);
    ToGrid(OneRow(row), None)
  }

  /** The list case of `_create_his_read_req_data`, for a given range value. */
  function HisReadManyRequest(list: seq<Ref>, text: Value): (g: Grid)
    ensures |g.rows| == |list|
    ensures forall i :: 0 <= i < |list| ==> Get(g.rows[i], "id") == Some(RefVal(list[i])) && Keys(g.rows[i]) == ["id"]
    ensures Get(g.meta, "range") == Some(text) && Get(g.meta, "ver") == Some(Str("3.0"))
    ensures Keys(g.meta) == ["ver", "range"]
    ensures ColNames(g.cols) == if |list| == 0 then [] else ["id"]
    ensures forall j :: 0 <= j < |g.cols| ==> g.cols[j].meta.None?
  {
    var rows := seq(|list|, i requires 0 <= i < |list| => [("id", RefVal(list[i]))]);
    forall i | 0 <= i < |list| ensures Get(rows[i], "id") == Some(RefVal(list[i])) && Keys(rows[i]) == ["id"] {
      SingletonRow("id", RefVal(list[i]));
    }
    SameKeyRowsColumns(rows, "id");
    var meta: Row := [("range", text)];
    SingletonRow("range", text);
    ToGridMeta(ManyRows(rows), Some(meta));
    VerThen("range", text);
    ToGrid(ManyRows(rows), Some(meta))
  }

  /** `{"ver": "3.0"} | {k: v}` for a key other than `ver` has the keys `ver` and `k`, in that order. */
  lemma VerThen(k: string, v: Value)
    requires k != "ver"
    ensures Keys(GridMeta(Some([(k, v)]))) == ["ver", k]
  {
    var extra: Dict<Value> := [(k, v)];
    assert Keys(VerMeta) == ["ver"];
    assert extra[..0] == [] && extra[0] == (k, v);
    assert Union(VerMeta, extra[..0]) == VerMeta;
    assert Union(VerMeta, extra) == Put(VerMeta, k, v);
  }

  lemma SingletonRow(k: string, v: Value)
    ensures Keys([(k, v)]) == [k] && Get([(k, v)], k) == Some(v)
  {
  }

  function HisReadById(server: Server, id: Ref, range: RangeArg): (r: Result<Grid, Error>)
    ensures IsAnswer(server, "hisRead", HisReadRequest(OneId(id), range), r)
  {
    Call(server, "hisRead", HisReadRequest(OneId(id), range))
  }

  function HisReadByIds(server: Server, ids: seq<Ref>, range: RangeArg): (r: Result<Grid, Error>)
    ensures IsAnswer(server, "hisRead", HisReadRequest(ManyIds(ids), range), r)
  {
    Call(server, "hisRead", HisReadRequest(ManyIds(ids), range))
  }

  /** The column name of the `i`-th point in a batch history write. */
  function VName(i: nat): string {
    "v" + Text.NatText(i)
  }

  /** Distinct positions have distinct column names, none of which is "ts". */
  lemma VNameInjective(i: nat, j: nat)
    ensures VName(i) == VName(j) <==> i == j
    ensures VName(i) != "ts"
  {
    if VName(i) == VName(j) {
      assert Text.NatText(i) == VName(i)[1..];
      Text.NatTextInjective(i, j);
    }
    assert VName(i)[0] == 'v';
  }

  /** The row keys `_validate_his_write_parameters` accepts. */
  function ExpectedColNames(ids: IdsArg): seq<string> {
    match ids
    case ManyIds(list) => seq(|list|, i requires 0 <= i < |list| => VName(i)) + ["ts"]
    case OneId(_) => ["ts", "val"]
  }

  /** For a list of `n` ids the accepted keys are "ts" and "v0" .. "v{n-1}"; for one id they are
      "ts" and "val". */
  lemma ExpectedColNamesMembers(ids: IdsArg, k: string)
    ensures ids.ManyIds? ==> (k in ExpectedColNames(ids) <==> k == "ts" || exists i :: 0 <= i < |ids.ids| && k == VName(i))
    ensures ids.OneId? ==> (k in ExpectedColNames(ids) <==> k == "ts" || k == "val")
  {
    if ids.ManyIds? {
      var names := ExpectedColNames(ids);
      if exists i :: 0 <= i < |ids.ids| && k == VName(i) {
        var i :| 0 <= i < |ids.ids| && k == VName(i);
        assert names[i] == k;
      }
    }
  }

  /** The first key, scanning in order, that is not in `allowed`. */
  function FirstInvalid(keys: seq<string>, allowed: seq<string>): (r: Option<string>)
    ensures r.None? <==> forall i :: 0 <= i < |keys| ==> keys[i] in allowed
    ensures r.Some? ==> r.value in keys && r.value !in allowed
    ensures r.Some? ==> forall i :: 0 <= i < Seqs.FirstIndex(keys, r.value) ==> keys[i] in allowed
    decreases |keys|
  {
    if |keys| == 0 then None
    else if keys[0] !in allowed then Some(keys[0])
    else
      var r := FirstInvalid(keys[1..], allowed);
      if r.Some? then
        assert keys == [keys[0]] + keys[1..];
        assert Seqs.FirstIndex(keys, r.value) == 1 + Seqs.FirstIndex(keys[1..], r.value);
        r
      else r
  }

  /** `_validate_his_write_parameters`: every key of every history row must be an expected column
      name; the first one that is not raises. Keys may be missing from a row. */
  function ValidateHisWriteParameters(ids: IdsArg, hisRows: seq<Row>): (r: Result<(), Error>)
    ensures r.Ok? <==> forall i, k :: 0 <= i < |hisRows| && k in Keys(hisRows[i]) ==> k in ExpectedColNames(ids)
    ensures r.Err? ==>
      && r.error.HisWriteOpParametersError?
      && r.error.invalidKey !in ExpectedColNames(ids)
      && (exists i :: 0 <= i < |hisRows| && r.error.invalidKey in Keys(hisRows[i]))
      && r.error.invalidKey in ScanKeys(hisRows)
      && forall j :: 0 <= j < Seqs.FirstIndex(ScanKeys(hisRows), r.error.invalidKey) ==>
        ScanKeys(hisRows)[j] in ExpectedColNames(ids)
  {
    var scan := ScanKeys(hisRows);
    var allowed := ExpectedColNames(ids);
    forall i, k | 0 <= i < |hisRows| && k in Keys(hisRows[i]) && FirstInvalid(scan, allowed).None?
      ensures k in allowed
    {
      ScanKeysCover(hisRows, i, k);
    }
    match FirstInvalid(scan, allowed)
    case None => Ok(())
    case Some(key) =>
      ScanKeysMembership(hisRows, key);
      Err(HisWriteOpParametersError(key))
  }

  /** No history rows, or rows using only some of the expected keys, always pass. */
  lemma ValidateHisWriteAcceptsSubsets(ids: IdsArg, hisRows: seq<Row>)
    requires forall i :: 0 <= i < |hisRows| ==> forall k :: k in Keys(hisRows[i]) ==> k in ExpectedColNames(ids)
    ensures ValidateHisWriteParameters(ids, hisRows) == Ok(())
  {
  }

  /** The request grid of `his_write_by_id`: the rows unchanged, the columns they use, and the
      point in the grid meta. */
  function HisWriteByIdRequest(id: Ref, hisRows: seq<Row>): (r: Result<Grid, Error>)
    ensures r.Ok? <==> ValidateHisWriteParameters(OneId(id), hisRows).Ok?
    ensures r.Err? ==> r.error == ValidateHisWriteParameters(OneId(id), hisRows).error
    ensures r.Ok? ==>
      && r.value.rows == hisRows
      && Get(r.value.meta, "id") == Some(RefVal(id))
      && Get(r.value.meta, "ver") == Some(Str("3.0"))
      && Keys(r.value.meta) == ["ver", "id"]
      && ColNames(r.value.cols) == Seqs.Dedup(ScanKeys(hisRows))
      && (forall j :: 0 <= j < |r.value.cols| ==> r.value.cols[j].meta.None?)
      && forall k :: k in ColNames(r.value.cols) ==> k == "ts" || k == "val"
  {
    var _ :- ValidateHisWriteParameters(OneId(id), hisRows);
    var meta: Row := [("id", RefVal(id))];
    SingletonRow("id", RefVal(id));
    ToGridMeta(ManyRows(hisRows), Some(meta));
    VerThen("id", RefVal(id));
    var g := ToGrid(ManyRows(hisRows), Some(meta));
    forall k | k in ColNames(g.cols) ensures k == "ts" || k == "val" {
      ToGridColumnsAreRowKeys(ManyRows(hisRows), Some(meta), k);
      ExpectedColNamesMembers(OneId(id), k);
    }
    Ok(g)
  }

  function HisWriteById(server: Server, id: Ref, hisRows: seq<Row>): (r: Result<Grid, Error>)
    ensures HisWriteByIdRequest(id, hisRows).Err? ==> r == HisWriteByIdRequest(id, hisRows).PropagateFailure()
    ensures HisWriteByIdRequest(id, hisRows).Ok? ==> IsAnswer(server, "hisWrite", HisWriteByIdRequest(id, hisRows).value, r)
  {
    var body :- HisWriteByIdRequest(id, hisRows);
    Call(server, "hisWrite", body)
  }

  /** The columns of a batch history write: "ts", then "v{i}" carrying the `i`-th point. */
  function HisWriteCols(ids: seq<Ref>): (cols: seq<Col>)
    ensures |cols| == |ids| + 1 && cols[0] == Col("ts", None)
    ensures forall i :: 0 <= i < |ids| ==> cols[i + 1] == Col(VName(i), Some([("id", RefVal(ids[i]))]))
  {
    [Col("ts", None)] + seq(|ids|, i requires 0 <= i < |ids| => Col(VName(i), Some([("id", RefVal(ids[i]))])))
  }

  /** The request grid of `his_write_by_ids`: meta `{"ver": "3.0"}`, the columns above and the
      rows unchanged, once the rows have passed validation. */
  function HisWriteByIdsRequest(ids: seq<Ref>, hisRows: seq<Row>): (r: Result<Grid, Error>)
    ensures r.Ok? <==> ValidateHisWriteParameters(ManyIds(ids), hisRows).Ok?
    ensures r.Err? ==> r.error == ValidateHisWriteParameters(ManyIds(ids), hisRows).error
    ensures r.Ok? ==> r.value.meta == VerMeta && r.value.rows == hisRows && r.value.cols == HisWriteCols(ids)
    ensures r.Ok? ==> |r.value.cols| == |ids| + 1 && r.value.cols[0].name == "ts"
    ensures r.Ok? ==> forall i :: 0 <= i < |ids| ==>
      && r.value.cols[i + 1].name == VName(i)
      && r.value.cols[i + 1].meta.Some?
      && Get(r.value.cols[i + 1].meta.value, "id") == Some(RefVal(ids[i]))
  {
    var _ :- ValidateHisWriteParameters(ManyIds(ids), hisRows);
    Ok(Grid(VerMeta, HisWriteCols(ids), hisRows))
  }

  lemma HisWriteColNames(ids: seq<Ref>)
    ensures ColNames(HisWriteCols(ids)) == ["ts"] + seq(|ids|, i requires 0 <= i < |ids| => VName(i))
  {
  }

  /** "ts" followed by "v0" .. "v{n-1}" has no repetition. */
  lemma VNamesDistinct(n: nat)
    ensures Seqs.Distinct(["ts"] + seq(n, i requires 0 <= i < n => VName(i)))
  {
    var names := ["ts"] + seq(n, i requires 0 <= i < n => VName(i));
    forall a, b | 0 <= a < b < |names| ensures names[a] != names[b] {
      VNameInjective(b - 1, if a == 0 then b - 1 else a - 1);
    }
  }

  /** An accepted batch history write is a consistent grid: its column names are distinct and
      every key of every row names one of its columns. */
  lemma HisWriteByIdsRequestConsistent(ids: seq<Ref>, hisRows: seq<Row>)
    requires ValidateHisWriteParameters(ManyIds(ids), hisRows).Ok?
    ensures HisWriteByIdsRequest(ids, hisRows).Ok?
    ensures var g := HisWriteByIdsRequest(ids, hisRows).value;
      && Seqs.Distinct(ColNames(g.cols))
      && forall i, k :: 0 <= i < |g.rows| && k in Keys(g.rows[i]) ==> k in ColNames(g.cols)
  {
    var g := HisWriteByIdsRequest(ids, hisRows).value;
    HisWriteColNames(ids);
    VNamesDistinct(|ids|);
    var names := ColNames(g.cols);
    forall i, k | 0 <= i < |g.rows| && k in Keys(g.rows[i]) ensures k in names {
      ExpectedColNamesMembers(ManyIds(ids), k);
      if k != "ts" {
        var j :| 0 <= j < |ids| && k == VName(j);
        assert names[j + 1] == k;
      }
    }
  }

  function HisWriteByIds(server: Server, ids: seq<Ref>, hisRows: seq<Row>): (r: Result<Grid, Error>)
    ensures HisWriteByIdsRequest(ids, hisRows).Err? ==> r == HisWriteByIdsRequest(ids, hisRows).PropagateFailure()
    ensures HisWriteByIdsRequest(ids, hisRows).Ok? ==> IsAnswer(server, "hisWrite", HisWriteByIdsRequest(ids, hisRows).value, r)
  {
    var body :- HisWriteByIdsRequest(ids, hisRows);
    Call(server, "hisWrite", body)
  }

  // ----- point write -------------------------------------------------------------------------

  /** The row `point_write` sends: `id` and `level`, then `val`, `who` and `duration` when given,
      each key once. */
  function PointWriteRow(id: Ref, level: int, val: Option<Value>, who: Option<string>, duration: Option<Number>): (row: Row)
    ensures Keys(row) == PointWriteKeys(val, who, duration)
    ensures WellFormed(row)
  {
    PointWriteBaseRow(id, level);
    var r0: Row := [("id", RefVal(id)), ("level", Int(level))];
    var r1 := PutIfGiven(r0, "val", val);
    var r2 := PutIfGiven(r1, "who", if who.Some? then Some(Str(who.value)) else None);
    PutIfGiven(r2, "duration", if duration.Some? then Some(Num(duration.value)) else None)
  }

  /** `if v is not None: row[k] = v`, for a key the row does not have yet. */
  function PutIfGiven(row: Row, k: string, v: Option<Value>): (r: Row)
    requires k !in Keys(row)
    ensures Keys(r) == Keys(row) + (if v.Some? then [k] else [])
    ensures Get(r, k) == v
    ensures forall k' :: k' != k ==> Get(r, k') == Get(row, k')
    ensures WellFormed(row) ==> WellFormed(r)
  {
    if v.Some? then
      Seqs.DistinctSnoc(Keys(row), k);
      Put(row, k, v.value)
    else row
  }

  /** The keys of a point-write row, in the order they are added: `id` and `level`, then each
      optional key that is given. */
  function PointWriteKeys(val: Option<Value>, who: Option<string>, duration: Option<Number>): seq<string> {
    ["id", "level"] + (if val.Some? then ["val"] else []) + (if who.Some? then ["who"] else [])
    + (if duration.Some? then ["duration"] else [])
  }

  /** The first two items of the point-write row. */
  lemma PointWriteBaseRow(id: Ref, level: int)
    ensures var r0: Row := [("id", RefVal(id)), ("level", Int(level))];
      && Keys(r0) == ["id", "level"]
      && Get(r0, "id") == Some(RefVal(id)) && Get(r0, "level") == Some(Int(level))
      && Get(r0, "val") == None && Get(r0, "who") == None && Get(r0, "duration") == None
  {
    var r0: Row := [("id", RefVal(id)), ("level", Int(level))];
    assert Keys(r0) == ["id", "level"];
    assert r0[..1] == [("id", RefVal(id))];
    SingletonRow("id", RefVal(id));
  }

  /** Each key of the point-write row reads back its argument. */
  lemma PointWriteRowValues(id: Ref, level: int, val: Option<Value>, who: Option<string>, duration: Option<Number>)
    ensures var row := PointWriteRow(id, level, val, who, duration);
      && Get(row, "id") == Some(RefVal(id)) && Get(row, "level") == Some(Int(level))
      && Get(row, "val") == val
      && Get(row, "who") == (if who.Some? then Some(Str(who.value)) else None)
      && Get(row, "duration") == (if duration.Some? then Some(Num(duration.value)) else None)
  {
    PointWriteBaseRow(id, level);
    var w: Option<Value> := if who.Some? then Some(Str(who.value)) else None;
    var d: Option<Value> := if duration.Some? then Some(Num(duration.value)) else None;
    var r0: Row := [("id", RefVal(id)), ("level", Int(level))];
    var r1 := PutIfGiven(r0, "val", val);
    var r2 := PutIfGiven(r1, "who", w);
    var r3 := PutIfGiven(r2, "duration", d);
    assert r3 == PointWriteRow(id, level, val, who, duration);
    assert Get(r2, "val") == val && Get(r2, "id") == Some(RefVal(id)) && Get(r2, "level") == Some(Int(level));
  }

  /** The request grid of `point_write`: one row that always has `id` and `level` and has `val`,
      `who` and `duration` exactly when they are given, each reading back the argument. */
  function PointWriteRequest(id: Ref, level: int, val: Option<Value>, who: Option<string>, duration: Option<Number>): (g: Grid)
    ensures g.meta == VerMeta && |g.rows| == 1
    ensures Get(g.rows[0], "id") == Some(RefVal(id)) && Get(g.rows[0], "level") == Some(Int(level))
    ensures Get(g.rows[0], "val") == val
    ensures Get(g.rows[0], "who") == if who.Some? then Some(Str(who.value)) else None
    ensures Get(g.rows[0], "duration") == if duration.Some? then Some(Num(duration.value)) else None
    ensures Keys(g.rows[0]) == PointWriteKeys(val, who, duration)
    ensures ColNames(g.cols) == Keys(g.rows[0])
    ensures forall j :: 0 <= j < |g.cols| ==> g.cols[j].meta.None?
  {
    var row := PointWriteRow(id, level, val, who, duration);
    PointWriteRowValues(id, level, val, who, duration);
    ToGridOneRowColumns(row, None);
    ToGridMeta(OneRow(row), None);
    ToGrid(OneRow(row), None)
  }

  function PointWrite(server: Server, id: Ref, level: int, val: Option<Value>, who: Option<string>, duration: Option<Number>): (r: Result<Grid, Error>)
    ensures IsAnswer(server, "pointWrite", PointWriteRequest(id, level, val, who, duration), r)
  {
    Call(server, "pointWrite", PointWriteRequest(id, level, val, who, duration))
  }

  /** `point_write_array(id)`: the point-write operation with only the id, which reads the array. */
  function PointWriteArrayRequest(id: Ref): (g: Grid)
    ensures g.meta == VerMeta && g.rows == [[("id", RefVal(id))]] && ColNames(g.cols) == ["id"]
    ensures forall j :: 0 <= j < |g.cols| ==> g.cols[j].meta.None?
  {
    var row: Row := [("id", RefVal(id))];
    assert Keys(row) == ["id"];
    ToGridOneRowColumns(row, None);
    ToGrid(OneRow(row), None)
  }

  function PointWriteArray(server: Server, id: Ref): (r: Result<Grid, Error>)
    ensures IsAnswer(server, "pointWrite", PointWriteArrayRequest(id), r)
  {
    Call(server, "pointWrite", PointWriteArrayRequest(id))
  }
}

=== FILE: dicts.dfy ===
/** Python's insertion-ordered `dict` with string keys, as a sequence of (key, value) items. */
module Dicts {
  import opened Wrappers
  import Seqs

  /** The items of a dict in insertion order. A dict built by Python never repeats a key
      (`WellFormed`); lookups below read the latest binding, which is the only one then. */
  type Dict<V> = seq<(string, V)>

  /** `list(d.keys())`. */
  function Keys<V>(d: Dict<V>): (ks: seq<string>)
    ensures |ks| == |d|
    ensures forall i :: 0 <= i < |d| ==> ks[i] == d[i].0
  {
    seq(|d|, i requires 0 <= i < |d| => d[i].0)
  }

  predicate WellFormed<V>(d: Dict<V>) {
    Seqs.Distinct(Keys(d))
  }

  lemma KeysSnoc<V>(d: Dict<V>, item: (string, V))
    ensures Keys(d + [item]) == Keys(d) + [item.0]
  {
  }

  /** `d.get(k)`: the value bound to `k`, or `None` when `k` is not a key. */
  function Get<V>(d: Dict<V>, k: string): (r: Option<V>)
    ensures r.Some? <==> k in Keys(d)
    decreases |d|
  {
    if |d| == 0 then None
    else
      assert d == d[..|d| - 1] + [d[|d| - 1]];
      KeysSnoc(d[..|d| - 1], d[|d| - 1]);
      if d[|d| - 1].0 == k then Some(d[|d| - 1].1) else Get(d[..|d| - 1], k)
  }

  /** Replaces the value of the latest item with key `k`, keeping its position. */
  function Replace<V>(d: Dict<V>, k: string, v: V): (r: Dict<V>)
    requires k in Keys(d)
    ensures Keys(r) == Keys(d)
    ensures Get(r, k) == Some(v)
    ensures forall k' :: k' != k ==> Get(r, k') == Get(d, k')
    decreases |d|
  {
    var p := d[..|d| - 1];
    var last := d[|d| - 1];
    assert d == p + [last];
    KeysSnoc(p, last);
    KeysSnoc(p, (k, v));
    if last.0 == k then
      var r := p + [(k, v)];
      assert r[..|r| - 1] == p;
      r
    else
      var q := Replace(p, k, v);
      var r := q + [last];
      assert r[..|r| - 1] == q;
      KeysSnoc(q, last);
      r
  }

  /** `d[k] = v`: a new key goes to the end, an existing key keeps its place. */
  function Put<V>(d: Dict<V>, k: string, v: V): (r: Dict<V>)
    ensures Keys(r) == if k in Keys(d) then Keys(d) else Keys(d) + [k]
    ensures Get(r, k) == Some(v)
    ensures forall k' :: k' != k ==> Get(r, k') == Get(d, k')
  {
    if k in Keys(d) then Replace(d, k, v)
    else
      var r := d + [(k, v)];
      assert r[..|r| - 1] == d;
      KeysSnoc(d, (k, v));
      r
  }

  /** `a | b`: a copy of `a` updated with the items of `b` in order, so `b` wins on a clash. */
  function Union<V>(a: Dict<V>, b: Dict<V>): (r: Dict<V>)
    ensures forall k :: Get(r, k) == if k in Keys(b) then Get(b, k) else Get(a, k)
    decreases |b|
  {
    if |b| == 0 then a
    else
      var p := b[..|b| - 1];
      var last := b[|b| - 1];
      assert b == p + [last];
      KeysSnoc(p, last);
      Put(Union(a, p), last.0, last.1)
  }

  /** The keys of `a | b` are those of `a` in their order, then the new keys of `b` in theirs. */
  lemma {:induction false} UnionKeys<V>(a: Dict<V>, b: Dict<V>)
    requires WellFormed(a)
    ensures Keys(Union(a, b)) == Seqs.Dedup(Keys(a) + Keys(b))
    ensures WellFormed(Union(a, b))
    decreases |b|
  {
    if |b| == 0 {
      assert Keys(a) + Keys(b) == Keys(a);
      Seqs.DedupOfDistinct(Keys(a));
    } else {
      var p := b[..|b| - 1];
      var last := b[|b| - 1];
      assert b == p + [last];
      KeysSnoc(p, last);
      UnionKeys(a, p);
      assert Keys(a) + Keys(b) == (Keys(a) + Keys(p)) + [last.0];
      Seqs.DedupSnoc(Keys(a) + Keys(p), last.0);
      Seqs.DedupSameElements(Keys(a) + Keys(p));
    }
  }
}

=== FILE: hx_client.dfy ===
/** The Haxall-specific operations: the three kinds of commit and Axon evaluation. Each one
    builds its request grid with `Grid.to_grid` and hands it to the client's call. */
module HxClient {
  import opened Wrappers
  import opened Dicts
  import opened Kinds
  import Seqs
  import Client

  /** What a commit accepts: one record, a list of records, or a grid whose rows are the records. */
  datatype Recs = RecDict(rec: Row) | RecList(recs: seq<Row>) | RecGrid(grid: Grid)

  datatype CommitKind = Add | Update | Remove

  /** The value of the `commit` meta tag. */
  function CommitText(kind: CommitKind): (t: string)
    ensures t in {"add", "update", "remove"}
    ensures (kind == Add <==> t == "add") && (kind == Update <==> t == "update")
  {
    match kind
    case Add => "add"
    case Update => "update"
    case Remove => "remove"
  }

  /** A grid is replaced by its rows; a record or a list goes to `to_grid` as it is. */
  function CommitRows(recs: Recs): (rows: RowsArg)
    ensures RowsOf(rows) == match recs
      case RecDict(rec) => [rec]
      case RecList(list) => list
      case RecGrid(grid) => grid.rows
  {
    match recs
    case RecDict(rec) => OneRow(rec)
    case RecList(list) => ManyRows(list)
    case RecGrid(grid) => ManyRows(grid.rows)
  }

  /** The meta of every commit request: the grid version, then the kind of commit. */
  function CommitMeta(kind: CommitKind): (m: Dict<Value>)
    ensures m == [("ver", Str("3.0")), ("commit", Str(CommitText(kind)))]
    ensures Keys(m) == ["ver", "commit"] && WellFormed(m)
  {
    var extra: Dict<Value> := [("commit", Str(CommitText(kind)))];
    assert Keys(VerMeta) == ["ver"];
    assert extra[..0] == [] && extra[0] == ("commit", Str(CommitText(kind)));
    assert Union(VerMeta, extra[..0]) == VerMeta;
    assert Union(VerMeta, extra) == Put(VerMeta, "commit", Str(CommitText(kind)));
    assert Put(VerMeta, "commit", Str(CommitText(kind))) == VerMeta + [("commit", Str(CommitText(kind)))];
    var m := GridMeta(Some(extra));
    assert Keys(m) == ["ver", "commit"];
    m
  }

  /** The request grid of a commit: the records as rows, one column per record key in order of
      first appearance, and the meta `ver` and `commit`. */
  function CommitRequest(kind: CommitKind, recs: Recs): (g: Grid)
    ensures g.meta == CommitMeta(kind)
    ensures g.rows == RowsOf(CommitRows(recs))
    ensures ColNames(g.cols) == Seqs.Dedup(ScanKeys(g.rows))
    ensures forall j :: 0 <= j < |g.cols| ==> g.cols[j].meta.None?
  {
    var g := ToGrid(CommitRows(recs), Some([("commit", Str(CommitText(kind)))]));
    assert g.meta == CommitMeta(kind);
    g
  }

  /** Committing a grid sends the same request as committing the list of its rows: the grid's
      own columns and meta are dropped. */
  lemma CommitGridIsItsRows(kind: CommitKind, grid: Grid)
    ensures CommitRequest(kind, RecGrid(grid)) == CommitRequest(kind, RecList(grid.rows))
  {
  }

  /** A lone record is sent as a one-row grid whose columns are its keys. */
  lemma CommitOneRecord(kind: CommitKind, rec: Row)
    requires WellFormed(rec)
    ensures CommitRequest(kind, RecDict(rec)).rows == [rec]
    ensures ColNames(CommitRequest(kind, RecDict(rec)).cols) == Keys(rec)
    ensures CommitRequest(kind, RecDict(rec)) == CommitRequest(kind, RecList([rec]))
  {
    ToGridOneRowColumns(rec, Some([("commit", Str(CommitText(kind)))]));
  }

  /** A name is a column of the commit grid exactly when some record has it as a key. */
  lemma CommitColumnsAreRecordKeys(kind: CommitKind, recs: Recs, k: string)
    ensures var g := CommitRequest(kind, recs);
      k in ColNames(g.cols) <==> exists i :: 0 <= i < |g.rows| && k in Keys(g.rows[i])
  {
    ToGridColumnsAreRowKeys(CommitRows(recs), Some([("commit", Str(CommitText(kind)))]), k);
  }

  function Commit(server: Client.Server, kind: CommitKind, recs: Recs): (r: Result<Grid, Client.Error>)
    ensures Client.IsAnswer(server, "commit", CommitRequest(kind, recs), r)
  {
    Client.Call(server, "commit", CommitRequest(kind, recs))
  }

  /** `commit_add(recs)` */
  function CommitAdd(server: Client.Server, recs: Recs): (r: Result<Grid, Client.Error>)
    ensures r == Commit(server, Add, recs)
    ensures CommitRequest(Add, recs).meta == [("ver", Str("3.0")), ("commit", Str("add"))]
  {
    Client.Call(server, "commit", CommitRequest(Add, recs))
  }

  /** `commit_update(recs)` */
  function CommitUpdate(server: Client.Server, recs: Recs): (r: Result<Grid, Client.Error>)
    ensures r == Commit(server, Update, recs)
    ensures CommitRequest(Update, recs).meta == [("ver", Str("3.0")), ("commit", Str("update"))]
  {
    Client.Call(server, "commit", CommitRequest(Update, recs))
  }

  /** `commit_remove(recs)` */
  function CommitRemove(server: Client.Server, recs: Recs): (r: Result<Grid, Client.Error>)
    ensures r == Commit(server, CommitKind.Remove, recs)
    ensures CommitRequest(CommitKind.Remove, recs).meta == [("ver", Str("3.0")), ("commit", Str("remove"))]
  {
    Client.Call(server, "commit", CommitRequest(CommitKind.Remove, recs))
  }

  /** The request grid of `eval(expr)`: one row and one column `expr` holding the expression. */
  function EvalRequest(expr: string): (g: Grid)
    ensures g.meta == VerMeta
    ensures ColNames(g.cols) == ["expr"]
    ensures |g.rows| == 1 && Keys(g.rows[0]) == ["expr"] && Get(g.rows[0], "expr") == Some(Str(expr))
    ensures forall j :: 0 <= j < |g.cols| ==> g.cols[j].meta.None?
  {
    var row: Row := [("expr", Str(expr))];
    Client.SingletonRow("expr", Str(expr));
    ToGridOneRowColumns(row, None);
    ToGrid(OneRow(row), None)
  }

  /** `eval(expr)` */
  function Eval(server: Client.Server, expr: string): (r: Result<Grid, Client.Error>)
    ensures Client.IsAnswer(server, "eval", EvalRequest(expr), r)
  {
    Client.Call(server, "eval", EvalRequest(expr))
  }
}

=== FILE: kinds.dfy ===
/** The Project Haystack value kinds and the `Grid` container of `phable/kinds.py`, with
    `Grid.to_grid`, which builds a grid from row data by inferring its columns. */
module Kinds {
  import opened Wrappers
  import opened Dicts
  import Seqs

  /** The magnitude of a `Number`: a Python `int`, or a `float` carried as the text Python
      prints for it (float rendering is not modelled). */
  datatype Magnitude = IntMag(i: int) | FloatMag(repr: string)

  datatype Number = Number(val: Magnitude, unit: Option<string>)

  /** Equality is structural over both fields, as for any frozen dataclass: two refs with the
      same `val` and different `dis` are different values. */
  datatype Ref = Ref(val: string, dis: Option<string>)

  datatype Date = Date(year: nat, month: nat, day: nat)

  datatype Time = Time(hour: nat, minute: nat, second: nat, microsecond: nat)

  /** A Python `datetime`. `offset` is the UTC offset text that `isoformat` prints for it
      (such as "-04:00", or "" when the datetime is naive) and `zone` is `str(tzinfo)`
      (such as "America/New_York"); both come from the zone database, which is not modelled. */
  datatype DateTime = DateTime(date: Date, time: Time, offset: string, zone: string)

  /** Every datum a grid cell, a grid meta or a column meta can hold. `Bool`, `Int`, `Str` and
      the date/time variants are the Python built-ins the client passes through unchanged. */
  datatype Value =
    | Marker
    | NA
    | Remove
    | Bool(b: bool)
    | Int(i: int)
    | Str(s: string)
    | Uri(uri: string)
    | Num(num: Number)
    | RefVal(ref: Ref)
    | Symbol(symbol: string)
    | Coord(lat: real, lng: real)
    | XStr(typeName: string, encoded: string)
    | DateVal(date: Date)
    | TimeVal(time: Time)
    | DateTimeVal(dateTime: DateTime)
    | ListVal(items: seq<Value>)
    | DictVal(dict: Dict<Value>)
    | GridVal(grid: Grid)

  /** A grid column: the dict `{"name": name}`, plus `"meta": {...}` when `meta` is present. */
  datatype Col = Col(name: string, meta: Option<Dict<Value>>)

  datatype Grid = Grid(meta: Dict<Value>, cols: seq<Col>, rows: seq<Dict<Value>>)

  type Row = Dict<Value>

  /** A range of whole days: midnight of `start` (inclusive) to midnight of `end` (exclusive). */
  datatype DateRange = DateRange(start: Date, end: Date)

  /** A range of instants; an absent `end` means up to the last recorded value. */
  datatype DateTimeRange = DateTimeRange(start: DateTime, end: Option<DateTime>)

  /** The first argument of `to_grid`: a lone dict or a list of dicts. */
  datatype RowsArg = OneRow(row: Row) | ManyRows(rows: seq<Row>)

  /** The rows `to_grid` keeps: a lone dict is wrapped in a one-element list. */
  function RowsOf(arg: RowsArg): seq<Row> {
    match arg
    case OneRow(row) => [row]
    case ManyRows(rows) => rows
  }

  function ColNames(cols: seq<Col>): (names: seq<string>)
    ensures |names| == |cols|
    ensures forall i :: 0 <= i < |cols| ==> names[i] == cols[i].name
  {
    seq(|cols|, i requires 0 <= i < |cols| => cols[i].name)
  }

  /** Every key of every row, scanning the rows in order and each row's keys in order. */
  function ScanKeys(rows: seq<Row>): seq<string>
    decreases |rows|
  {
    if |rows| == 0 then [] else ScanKeys(rows[..|rows| - 1]) + Keys(rows[|rows| - 1])
  }

  lemma ScanKeysStep(rows: seq<Row>, i: nat)
    requires i < |rows|
    ensures ScanKeys(rows[..i + 1]) == ScanKeys(rows[..i]) + Keys(rows[i])
  {
    assert rows[..i + 1][..i] == rows[..i];
  }

  /** A name occurs in the scan exactly when some row has it as a key. */
  lemma {:induction false} ScanKeysMembership(rows: seq<Row>, k: string)
    ensures k in ScanKeys(rows) <==> exists i :: 0 <= i < |rows| && k in Keys(rows[i])
    decreases |rows|
  {
    if |rows| > 0 {
      var p := rows[..|rows| - 1];
      ScanKeysMembership(p, k);
      if k in ScanKeys(p) {
        var i :| 0 <= i < |p| && k in Keys(p[i]);
        assert rows[i] == p[i];
      }
      if exists i :: 0 <= i < |rows| && k in Keys(rows[i]) {
        var i :| 0 <= i < |rows| && k in Keys(rows[i]);
        if i < |p| {
          assert p[i] == rows[i];
        }
      }
    }
  }

  /** The grid meta every request starts from. */
  const VerMeta: Dict<Value> := [("ver", Str("3.0"))]

  /** `{"ver": "3.0"}`, merged with the caller's meta when one is given. */
  function GridMeta(meta: Option<Dict<Value>>): (m: Dict<Value>)
    ensures meta.None? ==> m == VerMeta
    ensures meta.Some? ==> forall k :: k in Keys(meta.value) ==> Get(m, k) == Get(meta.value, k)
    ensures meta.Some? ==> forall k :: k !in Keys(meta.value) ==> Get(m, k) == Get(VerMeta, k)
  {
    match meta
    case None => VerMeta
    case Some(extra) => Union(VerMeta, extra)
  }

  /** `Grid.to_grid(rows, meta)`: the rows as given, one column per distinct row key in order of
      first appearance (each without column meta), and the merged meta. */
  function ToGrid(rows: RowsArg, meta: Option<Dict<Value>>): (g: Grid)
    ensures g.rows == RowsOf(rows)
    ensures ColNames(g.cols) == Seqs.Dedup(ScanKeys(RowsOf(rows)))
    ensures Seqs.Distinct(ColNames(g.cols))
    ensures forall j :: 0 <= j < |g.cols| ==> g.cols[j].meta.None?
    ensures g.meta == GridMeta(meta)
  {
    var names := Seqs.Dedup(ScanKeys(RowsOf(rows)));
    var cols := seq(|names|, i requires 0 <= i < |names| => Col(names[i], None));
    assert ColNames(cols) == names;
    Grid(GridMeta(meta), cols, RowsOf(rows))
  }

  /** A name is a column of `to_grid` exactly when some row has it as a key. */
  lemma ToGridColumnsAreRowKeys(rows: RowsArg, meta: Option<Dict<Value>>, k: string)
    ensures k in ColNames(ToGrid(rows, meta).cols) <==> exists i :: 0 <= i < |RowsOf(rows)| && k in Keys(RowsOf(rows)[i])
  {
    Seqs.DedupSameElements(ScanKeys(RowsOf(rows)));
    ScanKeysMembership(RowsOf(rows), k);
  }

  /** A lone row with distinct keys gives exactly its keys as columns, in its order. */
  lemma ToGridOneRowColumns(row: Row, meta: Option<Dict<Value>>)
    requires WellFormed(row)
    ensures ColNames(ToGrid(OneRow(row), meta).cols) == Keys(row)
  {
    assert [row][..0] == [];
    assert ScanKeys([row]) == Keys(row);
    Seqs.DedupOfDistinct(Keys(row));
  }

  /** Rows that all have the one key `k` give the one column `k`, if there is any row. */
  lemma {:induction false} SameKeyRowsColumns(rows: seq<Row>, k: string)
    requires forall i :: 0 <= i < |rows| ==> Keys(rows[i]) == [k]
    ensures Seqs.Dedup(ScanKeys(rows)) == if |rows| == 0 then [] else [k]
    decreases |rows|
  {
    if |rows| > 0 {
      var p := rows[..|rows| - 1];
      SameKeyRowsColumns(p, k);
      assert ScanKeys(rows) == ScanKeys(p) + [k];
      Seqs.DedupSnoc(ScanKeys(p), k);
    }
  }

  /** Every key of every row occurs in the scan. */
  lemma ScanKeysCover(rows: seq<Row>, i: nat, k: string)
    requires i < |rows| && k in Keys(rows[i])
    ensures k in ScanKeys(rows)
  {
    ScanKeysMembership(rows, k);
  }

  /** The columns of `to_grid` are the distinct row keys ordered by first appearance when
      scanning rows in order and then keys in order, and are the only such sequence. */
  lemma ToGridColumnOrder(rows: RowsArg, meta: Option<Dict<Value>>)
    ensures ColNames(ToGrid(rows, meta).cols) == Seqs.Dedup(ScanKeys(RowsOf(rows)))
    ensures var names := ColNames(ToGrid(rows, meta).cols);
      forall i, j :: 0 <= i < j < |names| ==>
        Seqs.FirstIndex(ScanKeys(RowsOf(rows)), names[i]) < Seqs.FirstIndex(ScanKeys(RowsOf(rows)), names[j])
  {
    Seqs.DedupFirstOccurrenceOrder(ScanKeys(RowsOf(rows)));
  }

  /** The loop of `to_grid` that collects column names: for each row, for each key, append the
      key unless it was already collected. */
  method InferColumns(rows: seq<Row>) returns (names: seq<string>)
    ensures names == Seqs.Dedup(ScanKeys(rows))
  {
    names := [];
    var i := 0;
    while i < |rows|
      invariant 0 <= i <= |rows|
      invariant names == Seqs.Dedup(ScanKeys(rows[..i]))
    {
      names := CollectNewKeys(names, ScanKeys(rows[..i]), Keys(rows[i]));
      ScanKeysStep(rows, i);
      i := i + 1;
    }
    assert rows[..i] == rows;
  }

  /** The inner loop of `to_grid`: appends each key of one row that is not yet a column name. */
  method CollectNewKeys(names: seq<string>, ghost scanned: seq<string>, keys: seq<string>)
    returns (names': seq<string>)
    requires names == Seqs.Dedup(scanned)
    ensures names' == Seqs.Dedup(scanned + keys)
  {
    names' := names;
    var j := 0;
    assert scanned + keys[..0] == scanned;
    while j < |keys|
      invariant 0 <= j <= |keys|
      invariant names' == Seqs.Dedup(scanned + keys[..j])
    {
      Seqs.DedupSnoc(scanned + keys[..j], keys[j]);
      Seqs.PrefixStep(scanned, keys, j);
      if keys[j] !in names' {
        names' := names' + [keys[j]];
      }
      j := j + 1;
    }
    assert keys[..j] == keys;
  }

  /** With no meta argument the grid meta is exactly `{"ver": "3.0"}`; with one, every caller
      key keeps the caller's value (the caller wins a clash on "ver"), "ver" is the first key,
      and "3.0" survives when the caller gives no "ver". */
  lemma ToGridMeta(rows: RowsArg, meta: Option<Dict<Value>>)
    ensures meta.None? ==> ToGrid(rows, meta).meta == [("ver", Str("3.0"))]
    ensures meta.Some? ==> forall k :: k in Keys(meta.value) ==> Get(ToGrid(rows, meta).meta, k) == Get(meta.value, k)
    ensures meta.Some? && "ver" !in Keys(meta.value) ==> Get(ToGrid(rows, meta).meta, "ver") == Some(Str("3.0"))
    ensures Keys(ToGrid(rows, meta).meta)[0] == "ver"
    ensures WellFormed(ToGrid(rows, meta).meta)
  {
    if meta.Some? {
      assert WellFormed(VerMeta);
      UnionKeys(VerMeta, meta.value);
      Seqs.DedupHead(Keys(VerMeta) + Keys(meta.value));
    } else {
      assert Keys(VerMeta) == ["ver"];
    }
  }
}

=== FILE: kinds_text.dfy ===
/** The text forms of `phable/kinds.py`: the `__str__` of each kind class, of `DateRange` and
    `DateTimeRange`, and `_to_haystack_datetime`. */
module KindsText {
  import opened Wrappers
  import opened Kinds
  import Text
  import Seqs

  const MarkerText: string := "\U{2713}"
  const NAText: string := "NA"
  const RemoveText: string := "remove"
  const GridText: string := "Haystack Grid"

  /** Python's `str()` of the magnitude; a float's text is carried by the model. */
  function MagnitudeText(m: Magnitude): string {
    match m
    case IntMag(i) => Text.IntText(i)
    case FloatMag(repr) => repr
  }

  /** `str(Number)`: the magnitude text, immediately followed by the unit when there is one. */
  function NumberText(n: Number): (t: string)
    ensures |t| >= |MagnitudeText(n.val)| && t[..|MagnitudeText(n.val)|] == MagnitudeText(n.val)
    ensures n.unit.Some? ==> t[|MagnitudeText(n.val)|..] == n.unit.value
    ensures n.unit.None? ==> t == MagnitudeText(n.val)
  {
    match n.unit
    case Some(u) => MagnitudeText(n.val) + u
    case None => MagnitudeText(n.val)
  }

  /** Reads an integer `Number` back from its text: the numeral, then the unit if any text is left. */
  function ParseNumberText(t: string): Option<Number> {
    match Text.ParseIntPrefix(t)
    case None => None
    case Some((i, rest)) => Some(Number(IntMag(i), if rest == [] then None else Some(rest)))
  }

  /** The text of an integer `Number` is unambiguous: the value and the unit are read back,
      provided the unit is absent or a non-empty text that does not start with a digit. */
  lemma NumberTextReadsBack(n: Number)
    requires n.val.IntMag?
    requires n.unit.Some? ==> |n.unit.value| > 0 && !Text.IsDigit(n.unit.value[0])
    ensures ParseNumberText(NumberText(n)) == Some(n)
  {
    var rest := if n.unit.Some? then n.unit.value else [];
    assert NumberText(n) == Text.IntText(n.val.i) + rest;
    Text.IntTextThenSuffix(n.val.i, rest);
  }

  /** `str(Uri)`: the identifier itself, with nothing added. */
  function UriText(uri: string): (t: string)
    ensures t == uri
  {
    uri
  }

  /** `str(Ref)`: the display name when present, otherwise `@` and the id. */
  function RefText(r: Ref): (t: string)
    ensures r.dis.Some? ==> t == r.dis.value
    ensures r.dis.None? ==> |t| == |r.val| + 1 && t[0] == '@' && t[1..] == r.val
  {
    match r.dis
    case Some(dis) => dis
    case None => "@" + r.val
  }

  /** Without a display name the text determines the ref; with one it does not: refs that share
      a display name print alike. */
  lemma RefTextAndEquality(a: string, b: string, dis: string)
    ensures RefText(Ref(a, None)) == RefText(Ref(b, None)) <==> a == b
    ensures RefText(Ref(a, Some(dis))) == RefText(Ref(b, Some(dis)))
  {
    if RefText(Ref(a, None)) == RefText(Ref(b, None)) {
      assert a == RefText(Ref(a, None))[1..];
    }
  }

  /** `str(v)` for the kinds whose `__str__` is modelled; `None` for the others. The singletons and
      the grid print as fixed texts. */
  function ValueText(v: Value): (t: Option<string>)
    ensures t.Some? <==> (v.Marker? || v.NA? || v.Remove? || v.Uri? || v.Num? || v.RefVal?
                          || v.Symbol? || v.XStr? || v.GridVal?)
    ensures v.Uri? ==> t == Some(v.uri)
    ensures v.Symbol? ==> |t.value| == |v.symbol| + 1 && t.value[0] == '^' && t.value[1..] == v.symbol
  {
    match v
    case Marker => Some(MarkerText)
    case NA => Some(NAText)
    case Remove => Some(RemoveText)
    case Uri(u) => Some(UriText(u))
    case Num(n) => Some(NumberText(n))
    case RefVal(r) => Some(RefText(r))
    case Symbol(name) => Some(SymbolText(name))
    case XStr(typeName, encoded) => Some(XStrText(typeName, encoded))
    case GridVal(_) => Some(GridText)
    case _ => None
  }

  /** The three singletons print as three different texts, and every grid prints alike. */
  lemma SingletonTexts(a: Value, b: Value, g: Grid, h: Grid)
    requires a.Marker? || a.NA? || a.Remove?
    requires b.Marker? || b.NA? || b.Remove?
    ensures ValueText(a) == ValueText(b) <==> a == b
    ensures ValueText(GridVal(g)) == ValueText(GridVal(h)) != ValueText(a)
  {
  }

  /** `str(Symbol)`: the name after a `^`. */
  function SymbolText(name: string): (t: string)
    ensures |t| == |name| + 1 && t[0] == '^' && t[1..] == name
  {
    "^" + name
  }

  /** `str(XStr)`: `(type, val)`. */
  function XStrText(typeName: string, encoded: string): (t: string)
    ensures |t| == |typeName| + |encoded| + 4
    ensures t[0] == '(' && t[|t| - 1] == ')'
  {
    "(" + typeName + ", " + encoded + ")"
  }

  /** Reads the type name and the encoded value back from the text of an `XStr`. */
  function ParseXStrText(t: string): Option<(string, string)> {
    if |t| < 2 || t[0] != '(' || t[|t| - 1] != ')' then None
    else
      match Text.SplitAtFirst(t[1..|t| - 1], ',')
      case None => None
      case Some((typeName, rest)) =>
        if |rest| > 0 && rest[0] == ' ' then Some((typeName, rest[1..])) else None
  }

  /** Type names never contain a comma, so the text of an `XStr` determines it. */
  lemma XStrTextReadsBack(typeName: string, encoded: string)
    requires ',' !in typeName
    ensures ParseXStrText(XStrText(typeName, encoded)) == Some((typeName, encoded))
  {
    var t := XStrText(typeName, encoded);
    assert t[1..|t| - 1] == typeName + [','] + (" " + encoded);
    Text.SplitAtFirstOfJoin(typeName, ',', " " + encoded);
  }

  // ----- dates and times -------------------------------------------------------------------

  /** The range Python's `date` admits for the fields formatted here. */
  predicate ValidDate(d: Date) {
    1 <= d.year <= 9999 && 1 <= d.month <= 12 && 1 <= d.day <= 31
  }

  predicate ValidTime(t: Time) {
    t.hour < 24 && t.minute < 60 && t.second < 60 && t.microsecond < 1000000
  }

  lemma PaddedExact(n: nat, width: nat)
    requires 0 < width && n < Text.Pow10(width)
    ensures |Text.Padded(n, width)| == width
  {
    Text.NatTextShort(n, width);
  }

  lemma DateFieldWidths(d: Date)
    ensures ValidDate(d) ==>
      |Text.Padded(d.year, 4)| == 4 && |Text.Padded(d.month, 2)| == 2 && |Text.Padded(d.day, 2)| == 2
  {
    if ValidDate(d) {
      assert Text.Pow10(4) == 10000 && Text.Pow10(2) == 100;
      PaddedExact(d.year, 4);
      PaddedExact(d.month, 2);
      PaddedExact(d.day, 2);
    }
  }

  /** `date.isoformat()`: `YYYY-MM-DD`, each field zero-padded. */
  function DateIso(d: Date): (t: string)
    ensures ValidDate(d) ==> |t| == 10 && t[4] == '-' && t[7] == '-'
  {
    DateFieldWidths(d);
    Text.Padded(d.year, 4) + "-" + Text.Padded(d.month, 2) + "-" + Text.Padded(d.day, 2)
  }

  /** Reads a `YYYY-MM-DD` text back as a date. */
  function ParseDate(t: string): Option<Date> {
    if |t| == 10 && t[4] == '-' && t[7] == '-'
       && Text.AllDigits(t[..4]) && Text.AllDigits(t[5..7]) && Text.AllDigits(t[8..])
    then Some(Date(Text.DigitsValue(t[..4]), Text.DigitsValue(t[5..7]), Text.DigitsValue(t[8..])))
    else None
  }

  /** The ISO text of a date determines the date. */
  lemma DateIsoReadsBack(d: Date)
    requires ValidDate(d)
    ensures ParseDate(DateIso(d)) == Some(d)
  {
    var t := DateIso(d);
    var y, m, dd := Text.Padded(d.year, 4), Text.Padded(d.month, 2), Text.Padded(d.day, 2);
    assert t == y + "-" + m + "-" + dd;
    assert t[..4] == y;
    assert t[5..7] == m;
    assert t[8..] == dd;
  }

  lemma TimeFieldWidths(t: Time)
    ensures ValidTime(t) ==>
      && |Text.Padded(t.hour, 2)| == 2 && |Text.Padded(t.minute, 2)| == 2
      && |Text.Padded(t.second, 2)| == 2 && |Text.Padded(t.microsecond / 1000, 3)| == 3
  {
    if ValidTime(t) {
      assert Text.Pow10(3) == 1000 && Text.Pow10(2) == 100;
      PaddedExact(t.hour, 2);
      PaddedExact(t.minute, 2);
      PaddedExact(t.second, 2);
      PaddedExact(t.microsecond / 1000, 3);
    }
  }

  /** `HH:MM:SS`, followed by `.mmm` (microseconds truncated to milliseconds) when asked. */
  function TimeIso(t: Time, millis: bool): (s: string)
    ensures ValidTime(t) ==> |s| == (if millis then 12 else 8) && s[2] == ':' && s[5] == ':'
    ensures ValidTime(t) && millis ==> s[8] == '.'
  {
    var h, m, sec := Text.Padded(t.hour, 2), Text.Padded(t.minute, 2), Text.Padded(t.second, 2);
    var tail := if millis then "." + Text.Padded(t.microsecond / 1000, 3) else "";
    var s := h + ":" + m + ":" + sec + tail;
    TimeFieldWidths(t);
    if ValidTime(t) then ClockShape(h, m, sec, tail); s else s
  }

  /** Each field of the text of a valid time reads back its value; the fraction reads back the
      microseconds truncated to milliseconds. */
  lemma TimeIsoReadsBack(t: Time, millis: bool)
    requires ValidTime(t)
    ensures var s := TimeIso(t, millis);
      && Text.AllDigits(s[0..2]) && Text.DigitsValue(s[0..2]) == t.hour
      && Text.AllDigits(s[3..5]) && Text.DigitsValue(s[3..5]) == t.minute
      && Text.AllDigits(s[6..8]) && Text.DigitsValue(s[6..8]) == t.second
      && (millis ==> Text.AllDigits(s[9..12]) && Text.DigitsValue(s[9..12]) == t.microsecond / 1000)
  {
    var h, m, sec := Text.Padded(t.hour, 2), Text.Padded(t.minute, 2), Text.Padded(t.second, 2);
    var ms := Text.Padded(t.microsecond / 1000, 3);
    TimeFieldWidths(t);
    if millis {
      assert TimeIso(t, millis) == h + ":" + m + ":" + sec + ("." + ms);
      ClockShape(h, m, sec, "." + ms);
      FractionShape(h + ":" + m + ":" + sec, ms);
    } else {
      assert TimeIso(t, millis) == h + ":" + m + ":" + sec + "";
      ClockShape(h, m, sec, "");
    }
  }

  /** The digits after the dot that follows an eight-character clock. */
  lemma FractionShape(clock: string, ms: string)
    requires |clock| == 8 && |ms| == 3
    ensures (clock + ("." + ms))[9..12] == ms
  {
    Seqs.InRight(clock, "." + ms, 1, 4);
    Seqs.InRight(".", ms, 0, 3);
    assert ms[0..3] == ms;
  }

  /** The separators and fields of `h:m:s` followed by a tail, for two-character fields. */
  lemma ClockShape(h: string, m: string, sec: string, tail: string)
    requires |h| == 2 && |m| == 2 && |sec| == 2
    ensures var s := h + ":" + m + ":" + sec + tail;
      && |s| == 8 + |tail| && s[2] == ':' && s[5] == ':'
      && s[0..2] == h && s[3..5] == m && s[6..8] == sec
      && s[8..8 + |tail|] == tail
  {
    // the text is A + tail, with A == B + sec, B == C + ":", C == D + m and D == h + ":"
    var D := h + ":";
    var C := D + m;
    var B := C + ":";
    var A := B + sec;
    Seqs.InLeft(A, tail, 0, 2);
    Seqs.InLeft(B, sec, 0, 2);
    Seqs.InLeft(C, ":", 0, 2);
    Seqs.InLeft(D, m, 0, 2);
    Seqs.InLeft(h, ":", 0, 2);
    assert h[0..2] == h;
    Seqs.InLeft(A, tail, 3, 5);
    Seqs.InLeft(B, sec, 3, 5);
    Seqs.InLeft(C, ":", 3, 5);
    Seqs.InRight(D, m, 0, 2);
    assert m[0..2] == m;
    Seqs.InLeft(A, tail, 6, 8);
    Seqs.InRight(B, sec, 0, 2);
    assert sec[0..2] == sec;
    Seqs.InRight(A, tail, 0, |tail|);
    assert tail[0..|tail|] == tail;
  }

  /** `x.isoformat(timespec=...)` as `_to_haystack_datetime` calls it: seconds precision when
      the microsecond is zero, milliseconds otherwise, then the UTC offset. */
  function DateTimeIso(x: DateTime): (t: string)
    ensures ValidDate(x.date) && ValidTime(x.time) ==>
      var w := if x.time.microsecond != 0 then 12 else 8;
      && |t| == 11 + w + |x.offset|
      && t[..10] == DateIso(x.date) && t[10] == 'T'
      && t[11..11 + w] == TimeIso(x.time, x.time.microsecond != 0)
      && t[11 + w..] == x.offset
  {
    var d, tm := DateIso(x.date), TimeIso(x.time, x.time.microsecond != 0);
    Seqs.Concat3(d + "T", tm, x.offset);
    Seqs.Concat2(d, "T");
    d + "T" + tm + x.offset
  }

  /** The Haystack zone name of an IANA zone name: the segment after its last `/`, or the whole
      name when it has none. */
  function HaystackZone(zone: string): (z: string)
    ensures z == Text.LastSegment(zone)
    ensures '/' !in z
    ensures |z| <= |zone| && z == zone[|zone| - |z|..]
    ensures |z| == |zone| || zone[|zone| - |z| - 1] == '/'
  {
    if '/' in zone then Text.LastSegment(zone)
    else
      Text.LastSegmentOfPlain(zone);
      zone
  }

  /** `_to_haystack_datetime(x)`: the ISO text, one space, and the Haystack zone name. */
  function HaystackDateTime(x: DateTime): (t: string)
    ensures |t| > |DateTimeIso(x)| && t[..|DateTimeIso(x)|] == DateTimeIso(x)
    ensures t[|DateTimeIso(x)|] == ' '
    ensures t[|DateTimeIso(x)| + 1..] == Text.LastSegment(x.zone)
  {
    var d, z := DateTimeIso(x), HaystackZone(x.zone);
    SpaceJoin(d, z);
    d + " " + z
  }

  /** The parts of two texts joined by one space. */
  lemma SpaceJoin(a: string, b: string)
    ensures var s := a + " " + b;
      && |s| == |a| + 1 + |b| && s[..|a|] == a && s[|a|] == ' ' && s[|a| + 1..] == b
  {
    Seqs.Concat3(a, " ", b);
    assert (a + " " + b)[|a|] == " "[0];
  }

  lemma NotInJoin(a: string, b: string, c: char)
    requires c !in a && c !in b
    ensures c !in a + b
  {
  }

  lemma SuffixLacks(s: string, k: nat, c: char)
    requires k <= |s| && c !in s
    ensures c !in s[k..]
  {
    assert forall i :: 0 <= i < |s| - k ==> s[k..][i] == s[k + i];
  }

  lemma DateIsoHasNoComma(d: Date)
    ensures ',' !in DateIso(d)
  {
    Text.DigitsHaveNo(Text.Padded(d.year, 4), ',');
    Text.DigitsHaveNo(Text.Padded(d.month, 2), ',');
    Text.DigitsHaveNo(Text.Padded(d.day, 2), ',');
    NotInJoin(Text.Padded(d.year, 4), "-", ',');
    NotInJoin(Text.Padded(d.year, 4) + "-", Text.Padded(d.month, 2), ',');
    NotInJoin(Text.Padded(d.year, 4) + "-" + Text.Padded(d.month, 2), "-", ',');
    NotInJoin(Text.Padded(d.year, 4) + "-" + Text.Padded(d.month, 2) + "-", Text.Padded(d.day, 2), ',');
  }

  lemma TimeIsoHasNoComma(t: Time, millis: bool)
    ensures ',' !in TimeIso(t, millis)
  {
    var h, m, s := Text.Padded(t.hour, 2), Text.Padded(t.minute, 2), Text.Padded(t.second, 2);
    var ms := Text.Padded(t.microsecond / 1000, 3);
    Text.DigitsHaveNo(h, ',');
    Text.DigitsHaveNo(m, ',');
    Text.DigitsHaveNo(s, ',');
    Text.DigitsHaveNo(ms, ',');
    NotInJoin(h, ":", ',');
    NotInJoin(h + ":", m, ',');
    NotInJoin(h + ":" + m, ":", ',');
    NotInJoin(h + ":" + m + ":", s, ',');
    NotInJoin(".", ms, ',');
    var tail := if millis then "." + ms else "";
    NotInJoin(h + ":" + m + ":" + s, tail, ',');
  }

  /** A formatted datetime has a comma only if its offset or its zone name has one. */
  lemma HaystackDateTimeHasNoComma(x: DateTime)
    requires ',' !in x.offset && ',' !in x.zone
    ensures ',' !in HaystackDateTime(x)
  {
    DateIsoHasNoComma(x.date);
    TimeIsoHasNoComma(x.time, x.time.microsecond != 0);
    var z := HaystackZone(x.zone);
    SuffixLacks(x.zone, |x.zone| - |z|, ',');
    var d, t := DateIso(x.date), TimeIso(x.time, x.time.microsecond != 0);
    NotInJoin(d, "T", ',');
    NotInJoin(d + "T", t, ',');
    NotInJoin(d + "T" + t, x.offset, ',');
    NotInJoin(DateTimeIso(x), " ", ',');
    NotInJoin(DateTimeIso(x) + " ", z, ',');
  }

  /** `str(DateRange)`: both dates in ISO form, joined by a comma. */
  function DateRangeText(r: DateRange): (t: string)
    ensures ValidDate(r.start) && ValidDate(r.end) ==>
      |t| == 21 && t[..10] == DateIso(r.start) && t[10] == ',' && t[11..] == DateIso(r.end)
  {
    Seqs.Concat3(DateIso(r.start), ",", DateIso(r.end));
    DateIso(r.start) + "," + DateIso(r.end)
  }

  function ParseDateRange(t: string): Option<DateRange> {
    if |t| != 21 || t[10] != ',' then None
    else
      match (ParseDate(t[..10]), ParseDate(t[11..]))
      case (Some(s), Some(e)) => Some(DateRange(s, e))
      case _ => None
  }

  /** The text of a range of valid dates determines the range. */
  lemma DateRangeTextReadsBack(r: DateRange)
    requires ValidDate(r.start) && ValidDate(r.end)
    ensures ParseDateRange(DateRangeText(r)) == Some(r)
  {
    var t := DateRangeText(r);
    assert t[..10] == DateIso(r.start);
    assert t[11..] == DateIso(r.end);
    DateIsoReadsBack(r.start);
    DateIsoReadsBack(r.end);
  }

  /** `str(DateTimeRange)`: the start alone when there is no end, otherwise start and end
      joined by a comma. */
  function DateTimeRangeText(r: DateTimeRange): (t: string)
    ensures r.end.None? ==> t == HaystackDateTime(r.start)
    ensures r.end.Some? ==>
      var a := HaystackDateTime(r.start);
      && |t| > |a| && t[..|a|] == a && t[|a|] == ','
      && t[|a| + 1..] == HaystackDateTime(r.end.value)
  {
    match r.end
    case None => HaystackDateTime(r.start)
    case Some(e) =>
      Seqs.Concat3(HaystackDateTime(r.start), ",", HaystackDateTime(e));
      HaystackDateTime(r.start) + "," + HaystackDateTime(e)
  }

  /** The comma appears exactly when there is an end, and splitting at it gives back the two
      formatted datetimes. */
  lemma DateTimeRangeTextSplit(r: DateTimeRange)
    requires ',' !in r.start.offset && ',' !in r.start.zone
    requires r.end.Some? ==> ',' !in r.end.value.offset && ',' !in r.end.value.zone
    ensures ',' in DateTimeRangeText(r) <==> r.end.Some?
    ensures r.end.Some? ==>
      Text.SplitAtFirst(DateTimeRangeText(r), ',') == Some((HaystackDateTime(r.start), HaystackDateTime(r.end.value)))
  {
    HaystackDateTimeHasNoComma(r.start);
    match r.end
    case None =>
    case Some(e) =>
      JoinAtComma(HaystackDateTime(r.start), HaystackDateTime(e));
  }

  /** Two texts joined by a comma, the first without one: the comma is there and splitting at
      the first comma gives the two texts back. */
  lemma JoinAtComma(a: string, b: string)
    requires ',' !in a
    ensures ',' in a + "," + b
    ensures Text.SplitAtFirst(a + "," + b, ',') == Some((a, b))
  {
    assert (a + "," + b)[|a|] == ',';
    Text.SplitAtFirstOfJoin(a, ',', b);
  }
}

=== FILE: seqs.dfy ===
/** Facts about sequences of names: distinctness and first-occurrence deduplication. */
module Seqs {

  /** No element occurs twice. */
  predicate Distinct<T(==)>(s: seq<T>) {
    forall i, j :: 0 <= i < j < |s| ==> s[i] != s[j]
  }

  lemma DistinctSnoc<T>(s: seq<T>, x: T)
    ensures Distinct(s) && x !in s ==> Distinct(s + [x])
  {
  }

  /** The position of the first occurrence of `x` in `s`. */
  function FirstIndex<T(==)>(s: seq<T>, x: T): (k: nat)
    requires x in s
    ensures k < |s| && s[k] == x
    ensures x !in s[..k]
  {
    if s[0] == x then 0
    else
      assert s == [s[0]] + s[1..];
      1 + FirstIndex(s[1..], x)
  }

  /** Keeps the first occurrence of every element, in order: the result of scanning `s`
      left to right and appending each element not yet collected. */
  function Dedup<T(==)>(s: seq<T>): (r: seq<T>)
    ensures Distinct(r)
    ensures forall i :: 0 <= i < |r| ==> r[i] in s
    ensures forall i :: 0 <= i < |s| ==> s[i] in r
    ensures |r| <= |s|
    decreases |s|
  {
    if |s| == 0 then []
    else
      var d := Dedup(s[..|s| - 1]);
      var x := s[|s| - 1];
      assert s == s[..|s| - 1] + [x];
      if x in d then d else d + [x]
  }

  /** Membership is preserved by deduplication, in both directions. */
  lemma DedupSameElements<T>(s: seq<T>)
    ensures forall x :: x in Dedup(s) <==> x in s
  {
  }

  /** A slice inside the left operand of a concatenation is that operand's slice. */
  lemma InLeft<T>(x: seq<T>, y: seq<T>, i: nat, j: nat)
    requires i <= j <= |x|
    ensures (x + y)[i..j] == x[i..j]
  {
  }

  /** A slice inside the right operand of a concatenation is that operand's slice. */
  lemma InRight<T>(x: seq<T>, y: seq<T>, i: nat, j: nat)
    requires i <= j <= |y|
    ensures (x + y)[|x| + i..|x| + j] == y[i..j]
  {
  }

  /** The two parts of a concatenation are its prefix and its suffix. */
  lemma Concat2<T>(a: seq<T>, b: seq<T>)
    ensures |a + b| == |a| + |b| && (a + b)[..|a|] == a && (a + b)[|a|..] == b
  {
  }

  /** The three parts of a concatenation, each recovered by slicing. */
  lemma Concat3<T>(a: seq<T>, b: seq<T>, c: seq<T>)
    ensures var s := a + b + c;
      && |s| == |a| + |b| + |c|
      && s[..|a|] == a && s[|a|..|a| + |b|] == b && s[|a| + |b|..] == c
  {
    var s := a + b + c;
    assert s[|a|..|a| + |b|] == b;
  }

  /** Extending a scanned prefix by one more element. */
  lemma PrefixStep<T>(a: seq<T>, b: seq<T>, j: nat)
    requires j < |b|
    ensures a + b[..j + 1] == (a + b[..j]) + [b[j]]
  {
    assert b[..j + 1] == b[..j] + [b[j]];
  }

  /** One step of the scan: what appending one more element does to the deduplication. */
  lemma DedupSnoc<T>(s: seq<T>, x: T)
    ensures Dedup(s + [x]) == if x in Dedup(s) then Dedup(s) else Dedup(s) + [x]
  {
    assert (s + [x])[..|s + [x]| - 1] == s;
  }

  /** The first element is always kept, and kept first. */
  lemma {:induction false} DedupHead<T>(s: seq<T>)
    requires |s| > 0
    ensures |Dedup(s)| > 0 && Dedup(s)[0] == s[0]
    decreases |s|
  {
    var p := s[..|s| - 1];
    assert s == p + [s[|s| - 1]];
    if |s| > 1 {
      DedupHead(p);
      DedupSnoc(p, s[|s| - 1]);
      assert p[0] == s[0];
      assert Dedup(s)[0] == Dedup(p)[0];
    } else {
      assert p == [];
    }
  }

  /** A sequence without repetitions is its own deduplication. */
  lemma {:induction false} DedupOfDistinct<T>(s: seq<T>)
    requires Distinct(s)
    ensures Dedup(s) == s
  {
    if |s| > 0 {
      var p := s[..|s| - 1];
      assert s == p + [s[|s| - 1]];
      assert Distinct(p);
      DedupOfDistinct(p);
      DedupSnoc(p, s[|s| - 1]);
    }
  }

  /** The first occurrence is the position of `x` that no earlier `x` precedes. */
  lemma {:induction false} FirstIndexAt<T>(s: seq<T>, x: T, k: nat)
    requires k < |s| && s[k] == x && x !in s[..k]
    ensures FirstIndex(s, x) == k
  {
    if k > 0 {
      assert s[0] in s[..k];
      assert s[1..][..k - 1] == s[..k][1..];
      FirstIndexAt(s[1..], x, k - 1);
    }
  }

  lemma FirstIndexOfPrefix<T>(s: seq<T>, x: T, y: T)
    requires x in s
    ensures FirstIndex(s + [y], x) == FirstIndex(s, x)
  {
    var k := FirstIndex(s, x);
    assert (s + [y])[..k] == s[..k];
    FirstIndexAt(s + [y], x, k);
  }

  /** The elements of the deduplication appear in the order of their first occurrence. */
  lemma {:induction false} DedupFirstOccurrenceOrder<T>(s: seq<T>)
    ensures forall i, j :: 0 <= i < j < |Dedup(s)| ==>
      FirstIndex(s, Dedup(s)[i]) < FirstIndex(s, Dedup(s)[j])
  {
    if |s| > 0 {
      var p := s[..|s| - 1];
      var x := s[|s| - 1];
      assert s == p + [x];
      DedupFirstOccurrenceOrder(p);
      var d := Dedup(p);
      DedupSnoc(p, x);
      forall i, j | 0 <= i < j < |Dedup(s)|
        ensures FirstIndex(s, Dedup(s)[i]) < FirstIndex(s, Dedup(s)[j])
      {
        FirstIndexOfPrefix(p, d[i], x);
        if j < |d| {
          FirstIndexOfPrefix(p, d[j], x);
        } else {
          assert Dedup(s)[j] == x && x !in p;
          assert s[..|p|] == p;
          FirstIndexAt(s, x, |p|);
        }
      }
    }
  }

  /** Distinctness, same elements and first-occurrence order determine the deduplication:
      any sequence with these three properties is `Dedup(s)`. */
  lemma {:induction false} DedupUnique<T>(s: seq<T>, r: seq<T>)
    requires Distinct(r)
    requires forall x :: x in r <==> x in s
    requires forall i, j :: 0 <= i < j < |r| ==> FirstIndex(s, r[i]) < FirstIndex(s, r[j])
    ensures r == Dedup(s)
  {
    DedupFirstOccurrenceOrder(s);
    var d := Dedup(s);
    SortedByFirstIndexUnique(s, r, d);
  }

  /** The head of a sequence sorted by first index has the least first index. */
  lemma SortedHeadFirst<T>(s: seq<T>, r: seq<T>, x: T)
    requires x in r
    requires forall y :: y in r ==> y in s
    requires forall i, j :: 0 <= i < j < |r| ==> FirstIndex(s, r[i]) < FirstIndex(s, r[j])
    ensures FirstIndex(s, r[0]) <= FirstIndex(s, x)
  {
    var k :| 0 <= k < |r| && r[k] == x;
    assert k == 0 || FirstIndex(s, r[0]) < FirstIndex(s, r[k]);
  }

  lemma {:induction false} SortedByFirstIndexUnique<T>(s: seq<T>, r: seq<T>, d: seq<T>)
    requires Distinct(r) && Distinct(d)
    requires forall x :: x in r <==> x in d
    requires forall x :: x in r ==> x in s
    requires forall i, j :: 0 <= i < j < |r| ==> FirstIndex(s, r[i]) < FirstIndex(s, r[j])
    requires forall i, j :: 0 <= i < j < |d| ==> FirstIndex(s, d[i]) < FirstIndex(s, d[j])
    ensures r == d
    decreases |r|
  {
    if |r| > 0 || |d| > 0 {
      assert |r| > 0 ==> r[0] in d;
      assert |d| > 0 ==> d[0] in r;
      var a, b := r[0], d[0];
      // both heads carry the least first index among the common elements
      SortedHeadFirst(s, r, b);
      SortedHeadFirst(s, d, a);
      assert s[FirstIndex(s, a)] == a && s[FirstIndex(s, b)] == b;
      assert a == b;
      assert r == [a] + r[1..] && d == [b] + d[1..];
      forall k | 0 <= k < |r| - 1 ensures r[1..][k] != a {
        assert r[1..][k] == r[k + 1];
      }
      forall k | 0 <= k < |d| - 1 ensures d[1..][k] != b {
        assert d[1..][k] == d[k + 1];
      }
      forall x ensures x in r[1..] <==> x in d[1..] {
        assert x in r <==> x == a || x in r[1..];
        assert x in d <==> x == b || x in d[1..];
      }
      SortedByFirstIndexUnique(s, r[1..], d[1..]);
      assert r == [a] + r[1..];
      assert d == [b] + d[1..];
    }
  }
}

=== FILE: text.dfy ===
/** Decimal rendering of integers as Python's `str()` and `%0Nd` produce it, its inverse,
    and the "after the last slash" segment of a name. */
module Text {
  import opened Wrappers

  predicate IsDigit(c: char) {
    '0' <= c <= '9'
  }

  predicate AllDigits(s: string) {
    forall i :: 0 <= i < |s| ==> IsDigit(s[i])
  }

  function DigitChar(d: nat): (c: char)
    requires d < 10
    ensures IsDigit(c)
  {
    ('0' as int + d) as char
  }

  function DigitValue(c: char): (d: nat)
    requires IsDigit(c)
    ensures d < 10 && DigitChar(d) == c
  {
    c as int - '0' as int
  }

  /** The number a string of decimal digits denotes, most significant digit first. */
  function DigitsValue(s: string): nat
    requires AllDigits(s)
    decreases |s|
  {
    if |s| == 0 then 0 else DigitsValue(s[..|s| - 1]) * 10 + DigitValue(s[|s| - 1])
  }

  /** Python's `str(n)` for a non-negative integer: the shortest decimal numeral of `n`.
      It reads back as `n` and carries no leading zero. */
  function NatText(n: nat): (s: string)
    ensures |s| > 0 && AllDigits(s)
    ensures DigitsValue(s) == n
    ensures s[0] == '0' <==> n == 0
    ensures n == 0 ==> s == "0"
    decreases n
  {
    if n < 10 then [DigitChar(n)]
    else
      var p := NatText(n / 10);
      var s := p + [DigitChar(n % 10)];
      assert s[..|s| - 1] == p;
      s
  }

  /** Distinct numbers are rendered as distinct numerals. */
  lemma NatTextInjective(a: nat, b: nat)
    ensures NatText(a) == NatText(b) <==> a == b
  {
  }

  /** Python's `str(i)` for any integer: a minus sign before the magnitude when negative. */
  function IntText(i: int): (s: string)
    ensures |s| > 0
    ensures s[0] == '-' <==> i < 0
    ensures i < 0 ==> s[1..] == NatText(-i)
    ensures i >= 0 ==> s == NatText(i)
  {
    if i < 0 then "-" + NatText(-i) else NatText(i)
  }

  function Zeros(k: nat): (z: string)
    ensures |z| == k && AllDigits(z)
  {
    seq(k, _ => '0')
  }

  lemma {:induction false} ZerosValue(k: nat)
    ensures DigitsValue(Zeros(k)) == 0
  {
    if k > 0 {
      assert Zeros(k)[..k - 1] == Zeros(k - 1);
      ZerosValue(k - 1);
    }
  }

  /** Leading zeros do not change the value of a numeral. */
  lemma {:induction false} LeadingZerosValue(k: nat, s: string)
    requires AllDigits(s)
    ensures AllDigits(Zeros(k) + s)
    ensures DigitsValue(Zeros(k) + s) == DigitsValue(s)
    decreases |s|
  {
    if |s| == 0 {
      assert Zeros(k) + s == Zeros(k);
      ZerosValue(k);
    } else {
      var t := Zeros(k) + s;
      assert t[..|t| - 1] == Zeros(k) + s[..|s| - 1];
      LeadingZerosValue(k, s[..|s| - 1]);
    }
  }

  /** Python's `"%0{width}d" % n`: the numeral of `n`, left-padded with zeros to `width`. */
  function Padded(n: nat, width: nat): (s: string)
    ensures |s| == if |NatText(n)| >= width then |NatText(n)| else width
    ensures AllDigits(s) && DigitsValue(s) == n
  {
    var t := NatText(n);
    if |t| >= width then t
    else
      LeadingZerosValue(width - |t|, t);
      Zeros(width - |t|) + t
  }

  /** Numbers below `10^k` have at most `k` digits, so padding them to `k` gives exactly `k`. */
  lemma {:induction false} NatTextShort(n: nat, k: nat)
    requires n < Pow10(k)
    ensures |NatText(n)| <= k || (n == 0 && k == 0)
    decreases k
  {
    if n >= 10 {
      NatTextShort(n / 10, k - 1);
    }
  }

  function Pow10(k: nat): (p: nat)
    ensures p >= 1
  {
    if k == 0 then 1 else 10 * Pow10(k - 1)
  }

  /** The length of the run of digits that starts `s`. */
  function DigitRun(s: string): (k: nat)
    ensures k <= |s|
    ensures AllDigits(s[..k])
    ensures k < |s| ==> !IsDigit(s[k])
  {
    if |s| == 0 || !IsDigit(s[0]) then 0
    else
      var k := 1 + DigitRun(s[1..]);
      assert s[..k] == [s[0]] + s[1..][..k - 1];
      k
  }

  /** Reads an optionally signed integer numeral from the front of `s` and returns it with the
      text that follows; `None` when `s` does not start with a numeral. */
  function ParseIntPrefix(s: string): Option<(int, string)>
  {
    var neg := |s| > 0 && s[0] == '-';
    var body := if neg then s[1..] else s;
    var k := DigitRun(body);
    if k == 0 then None
    else
      var m: int := DigitsValue(body[..k]);
      Some((if neg then -m else m, body[k..]))
  }

  /** Rendering an integer and then any text that does not start with a digit can be undone:
      the integer and the text are read back. */
  lemma IntTextThenSuffix(i: int, rest: string)
    requires rest == [] || !IsDigit(rest[0])
    ensures ParseIntPrefix(IntText(i) + rest) == Some((i, rest))
  {
    var s := IntText(i) + rest;
    var body := if i < 0 then NatText(-i) + rest else NatText(i) + rest;
    var t := if i < 0 then NatText(-i) else NatText(i);
    assert body == t + rest;
    if i < 0 {
      assert s[1..] == body;
    }
    DigitRunOfNumeral(t, rest);
    assert body[..|t|] == t && body[|t|..] == rest;
  }

  lemma {:induction false} DigitRunOfNumeral(t: string, rest: string)
    requires AllDigits(t)
    requires rest == [] || !IsDigit(rest[0])
    ensures DigitRun(t + rest) == |t|
    decreases |t|
  {
    if |t| > 0 {
      assert (t + rest)[1..] == t[1..] + rest;
      DigitRunOfNumeral(t[1..], rest);
    }
  }

  /** Python's `name.split("/")[-1]`: the part of `name` after its last slash, or all of it
      when it has no slash. */
  function LastSegment(name: string): (r: string)
    ensures '/' !in r
    ensures |r| <= |name| && r == name[|name| - |r|..]
    ensures |r| == |name| || name[|name| - |r| - 1] == '/'
    decreases |name|
  {
    if |name| == 0 then ""
    else if name[|name| - 1] == '/' then ""
    else
      var r := LastSegment(name[..|name| - 1]) + [name[|name| - 1]];
      assert name[..|name| - 1][|name| - |r|..] == name[|name| - |r|..|name| - 1];
      r
  }

  /** A name with no slash is its own last segment. */
  lemma {:induction false} LastSegmentOfPlain(name: string)
    requires '/' !in name
    ensures LastSegment(name) == name
    decreases |name|
  {
    if |name| > 0 {
      var p := name[..|name| - 1];
      assert name == p + [name[|name| - 1]];
      assert '/' !in p;
      LastSegmentOfPlain(p);
    }
  }

  /** Splits `s` at the first occurrence of `c`: the text before it and the text after it. */
  function SplitAtFirst(s: string, c: char): (r: Option<(string, string)>)
    ensures r.Some? <==> c in s
    ensures r.Some? ==> c !in r.value.0 && s == r.value.0 + [c] + r.value.1
    decreases |s|
  {
    if |s| == 0 then None
    else if s[0] == c then Some(([], s[1..]))
    else
      match SplitAtFirst(s[1..], c)
      case None => None
      case Some((before, after)) => Some(([s[0]] + before, after))
  }

  /** Joining two texts with a separator the first does not contain can be undone by a split. */
  lemma {:induction false} SplitAtFirstOfJoin(a: string, c: char, b: string)
    requires c !in a
    ensures SplitAtFirst(a + [c] + b, c) == Some((a, b))
    decreases |a|
  {
    if |a| > 0 {
      assert (a + [c] + b)[1..] == a[1..] + [c] + b;
      assert c != a[0] && c !in a[1..];
      SplitAtFirstOfJoin(a[1..], c, b);
      assert [a[0]] + a[1..] == a;
    }
  }

  lemma DigitsHaveNo(s: string, c: char)
    requires AllDigits(s) && !IsDigit(c)
    ensures c !in s
  {
  }
}

=== FILE: wrappers.dfy ===
/** Option and Result, the failure-carrying shapes used throughout the model. */
module Wrappers {

  /** A value that may be absent; stands for Python's `X | None`. */
  datatype Option<+T> = None | Some(value: T)

  /** The outcome of an operation that either returns a value or raises an exception. */
  datatype Result<+T, +E> = Ok(value: T) | Err(error: E) {
    predicate IsFailure() {
      Err?
    }

    function PropagateFailure<U>(): Result<U, E>
      requires Err?
    {
      Err(error)
    }

    function Extract(): T
      requires Ok?
    {
      value
    }
  }
}
